=== FILE: README.md ===
# Kubernetes asset graph: relationship inference, loading and attack-path parsing

This project models the part of the Kubernetes security-graph backend that
turns one snapshot of cluster assets into graph vertices and typed edges. It
also models the frontend code that reads attack-path strings back into table
rows. It has four parts.

- **Discovery** (`K8sAssetDiscovery`). Each object the cluster API returns
  becomes an asset record. Container ids are `pod name + "-" + container name`.
  The ports field is the decimal ports joined with commas, or `""` when there
  are none. A node's status is the type of its last condition, or `"Unknown"`.
  Namespace and node ids are their names, container ids are built from the
  pod and container names, and every other kind uses its UID. The
  RBAC list holds the namespaced roles first, then the cluster roles, which get
  the namespace `"cluster"`. A listing that fails leaves only its own category
  empty. The API calls are inputs to the model: each listing is either the
  returned objects or a failure.
- **Relationship inference** (`TigerGraphManager._create_relationships` and its
  four matchers). A snapshot yields seven edge groups in a fixed order:
  runs_on, exposes, manages, contains, uses_config, uses_secret, has_container.
  The matchers use four rules:
  - namespace equality on the raw optional values;
  - containment of the selector's key/value pairs in the pod's labels;
  - the deployment name occurring as a substring of the pod name;
  - pods paired with every config map or secret in the same namespace.

  The edge list is then cut into seven per-relation batches.
- **Loading** (`insert_vertices`, `insert_edges`, `import_k8s_assets`). Each
  record is projected to a vertex whose id is its `id` entry and whose
  attributes are every other entry. The containers of all pods are collected
  pod after pod into the Container vertices. Every edge is loaded with empty
  attributes.
- **Attack-path parsing** (`handleQuery` in `AttackPaths.tsx`). Each string
  `s -> t (RISK: …)` produced by the backend's query becomes a row:
  - a running id `"1"`, `"2"`, …;
  - the source: the text before the first `" -> "`;
  - the target: the next segment, cut at `" ("`;
  - a risk level read from whether the string contains `HIGH` or `MEDIUM`.

Python truthiness of `pod.get('node')` and `pod.get('namespace')` is `Some(s)`
with `s != ""` (`Wrappers.Truthy`). A dictionary key that may be absent is an
`Option` field. The substring test `a in b` is an explicit `exists` over offsets
(`Text.Contains`), so the empty string is a substring of everything.
JavaScript's `split` is `Text.Split`. Joining its pieces with the separator
gives the string back for every string and non-empty separator (`Text.JoinSplit`).
The converse, that splitting undoes joining, is proved only for a
one-character separator and pieces that do not contain it (`Text.SplitJoin`);
in general it fails, as `"a,b"` joined alone and split at `","` shows.

The `runs_on` batch is modelled exactly as `tigergraph_manager.py:195` writes
it. The code takes the prefix of the edge list whose length is the number of
edge dictionaries that have a `'runs_on'` key. No edge dictionary has that key,
so the batch is always empty (`RunsOnBatchEmpty`). The Pod→K8sNode edges are
built, but no other batch takes them (`RunsOnEdgesReachNoBatch`), so no
runs_on edge is ever loaded.

Discovery never writes a `labels` entry into a pod dictionary or a `selector`
entry into a service dictionary (`k8s_discovery.py:75-99`). The exposes
matcher reads both with `.get`, so a missing selector is an empty one, and an
empty selector is contained in any label set. Every discovered service
therefore exposes every discovered pod of its own namespace
(`DiscoveredServicesExposeWholeNamespace`).

Files:

| file | module | contents |
|---|---|---|
| `wrappers.dfy` | `Wrappers` | `Option`, truthiness of an optional string |
| `seqs.dfy` | `Seqs` | `Map`, `Filter`, `FlatMap`, `Flatten`, `Count` and their lemmas |
| `text.dfy` | `Text` | substring search, `Split`/`Join` and their inverse lemmas, decimal printing |
| `assets.dfy` | `Assets` | the asset records and their dictionary view |
| `discovery.dfy` | `Discovery` | cluster objects to records, `discover_all_assets` |
| `relationships.dfy` | `Relationships` | matchers, edge groups, batches and their properties |
| `projection.dfy` | `Projection` | vertex/edge projection, container collection, the import plan |
| `attack_paths.dfy` | `AttackPaths` | the attack-path string parser and its round trips |

## Model

| member | source | states |
|---|---|---|
| Projection.ProjectVertex | backend/tigergraph_manager.py:59-66 | the vertex id is the record's `id` entry; the attributes hold exactly the other keys, each with its value unchanged |
| Projection.ProjectVertices | backend/tigergraph_manager.py:57-71 | the loads are the projections of a prefix of the records, in order; if loading stops early, the next record lacks `id` (the `KeyError` ends the loop) |
| Projection.ProjectVerticesComplete | backend/tigergraph_manager.py:57-71 | when every record has an `id`, every record is loaded |
| Projection.ProjectEdge | backend/tigergraph_manager.py:75-83 | one edge upsert: its edge type is the batch's, its source and target types and ids are the edge dictionary's `from_type`, `from_id`, `to_type` and `to_id`, and since that dictionary has no `attributes` key the attributes are empty |
| Projection.ProjectEdges | backend/tigergraph_manager.py:73-88 | the upserts `insert_edges` issues for a batch; its contract is stated by EdgeLoadsCopyEdges |
| Projection.EdgeLoadsCopyEdges | backend/tigergraph_manager.py:73-88 | one upsert per edge, in order, under the batch's edge type, copying each edge's endpoint types and ids, with empty attributes |
| Projection.CollectContainers | backend/tigergraph_manager.py:104-108 | the nested loop yields each pod's containers, pod after pod; its length is the total container count |
| Projection.ContainerCount | backend/tigergraph_manager.py:104-108 | the container collection is as long as the containers of all pods together |
| Projection.Import | backend/tigergraph_manager.py:90-113 | `import_k8s_assets`: vertex batches then edge batches; its contract is stated by ImportLoadsEveryRecord, ImportLoadsEveryContainer and ImportEdgeBatches |
| Projection.ImportLoadsEveryRecord | backend/tigergraph_manager.py:93-108 | the import loads nine vertex batches in source order, each with its vertex type, and loads every record of each collection at its own index |
| Projection.ImportLoadsEveryContainer | backend/tigergraph_manager.py:103-108 | the Container batch has one vertex per container of every pod, with the container's id |
| Projection.ImportEdgeBatches | backend/tigergraph_manager.py:195-201 | seven edge batches are loaded in relation order; runs_on loads nothing; every other batch loads exactly its relation's group, with empty attributes |
| Projection.PodVertexLoaded | backend/tigergraph_manager.py:96 | every pod of the snapshot is loaded as a Pod vertex with its id |
| Projection.ContainerVertexLoaded | backend/tigergraph_manager.py:104-108 | every container of every pod is loaded as a Container vertex with its id |
| Projection.HasContainerLoadOrigin | backend/tigergraph_manager.py:185-192 | every has_container upsert goes from some pod to one of its own containers |
| Projection.HasContainerEndpointsLoaded | backend/tigergraph_manager.py:185-201 | both ends of every has_container edge, which by ImportEdgeBatches is the loaded has_container batch, are a Pod and a Container vertex the same import loads |
| Relationships.SelectorMatchesIsSubmap | backend/tigergraph_manager.py:209 | the `all(labels.get(k) == v …)` test holds iff the selector's pairs are a subset of the labels' pairs |
| Relationships.PodsForService | backend/tigergraph_manager.py:203-211 | a pod is selected iff it is among the pods, has the service's namespace and carries every selector pair; a missing selector counts as empty; its order is stated by PodsForServiceOrder |
| Relationships.PodsForServiceOrder | backend/tigergraph_manager.py:203-211 | the pods selected from `a + b` are those selected from `a` followed by those from `b`, and a single pod is selected exactly when the service selects it, so the result keeps pod order |
| Relationships.PodsForDeployment | backend/tigergraph_manager.py:213-219 | a pod is selected iff it is among the pods, has the deployment's namespace and the deployment name is a substring of its name; its order is stated by PodsForDeploymentOrder |
| Relationships.PodsForDeploymentOrder | backend/tigergraph_manager.py:213-219 | the pods selected from `a + b` are those selected from `a` followed by those from `b`, and a single pod is selected exactly when the deployment selects it, so the result keeps pod order |
| Relationships.ConfigMapsForPod | backend/tigergraph_manager.py:221-226 | a config map is selected iff its namespace equals the pod's; its order is stated by ConfigMapsForPodOrder |
| Relationships.ConfigMapsForPodOrder | backend/tigergraph_manager.py:221-226 | the config maps matched from `a + b` are those matched from `a` followed by those from `b`, and a single config map is matched exactly when it shares the pod's namespace, so the result keeps listing order |
| Relationships.ConfigMapsForPodMultiset | backend/tigergraph_manager.py:221-226 | a config map listed n times in the pod's namespace is selected n times; one in another namespace is not selected |
| Relationships.SecretsForPod | backend/tigergraph_manager.py:228-233 | a secret is selected iff its namespace equals the pod's; its order is stated by SecretsForPodOrder |
| Relationships.SecretsForPodOrder | backend/tigergraph_manager.py:228-233 | the secrets matched from `a + b` are those matched from `a` followed by those from `b`, and a single secret is matched exactly when it shares the pod's namespace, so the result keeps listing order |
| Relationships.SecretsForPodMultiset | backend/tigergraph_manager.py:228-233 | a secret listed n times in the pod's namespace is selected n times; one in another namespace is not selected |
| Relationships.RunsOnEdges | backend/tigergraph_manager.py:119-126 | a Pod→K8sNode edge exists iff some pod has a present, non-empty node, and the edge points to that node; the order is stated by RunsOnEdgesOrder |
| Relationships.ExposesEdges | backend/tigergraph_manager.py:129-137 | a Service→Pod edge exists iff the namespaces are equal and the selector's pairs are among the pod's labels; the order is stated by ExposesEdgesOrder |
| Relationships.ManagesEdges | backend/tigergraph_manager.py:140-148 | a Deployment→Pod edge exists iff the namespaces are equal and the deployment name is a substring of the pod name; the order is stated by ManagesEdgesOrder |
| Relationships.ContainsEdges | backend/tigergraph_manager.py:151-158 | a Namespace→Pod edge exists iff the pod has a non-empty namespace, and the edge starts at that namespace; the order is stated by ContainsEdgesOrder |
| Relationships.UsesConfigEdges | backend/tigergraph_manager.py:160-170 | a Pod→ConfigMap edge exists iff the pod has a non-empty namespace equal to the config map's; the order is stated by UsesConfigEdgesOrder |
| Relationships.UsesSecretEdges | backend/tigergraph_manager.py:172-182 | a Pod→Secret edge exists iff the pod has a non-empty namespace equal to the secret's; the order is stated by UsesSecretEdgesOrder |
| Relationships.HasContainerEdges | backend/tigergraph_manager.py:184-192 | a Pod→Container edge exists iff the container belongs to the pod; the order is stated by HasContainerEdgesOrder |
| Relationships.RunsOnEdgesOrder | backend/tigergraph_manager.py:119-126 | the runs_on edges of pods `a + b` are those of `a` followed by those of `b`, and one pod yields its single edge to its node exactly when the node is present and non-empty, so the edges follow pod order |
| Relationships.ExposesEdgesOrder | backend/tigergraph_manager.py:129-137 | the exposes edges of services `a + b` are those of `a` followed by those of `b`, and one service yields one edge per selected pod, in pod order |
| Relationships.ManagesEdgesOrder | backend/tigergraph_manager.py:140-148 | the manages edges of deployments `a + b` are those of `a` followed by those of `b`, and one deployment yields one edge per selected pod, in pod order |
| Relationships.ContainsEdgesOrder | backend/tigergraph_manager.py:151-158 | the contains edges of pods `a + b` are those of `a` followed by those of `b`, and one pod yields its single edge from its namespace exactly when the namespace is present and non-empty |
| Relationships.UsesConfigEdgesOrder | backend/tigergraph_manager.py:160-170 | the uses_config edges of pods `a + b` are those of `a` followed by those of `b`; one pod yields nothing without a namespace, and otherwise one edge per matched config map, in listing order |
| Relationships.UsesSecretEdgesOrder | backend/tigergraph_manager.py:172-182 | the uses_secret edges of pods `a + b` are those of `a` followed by those of `b`; one pod yields nothing without a namespace, and otherwise one edge per matched secret, in listing order |
| Relationships.HasContainerEdgesOrder | backend/tigergraph_manager.py:184-192 | the has_container edges of pods `a + b` are those of `a` followed by those of `b`, and one pod yields one edge per container, in container order |
| Relationships.CreateRelationships | backend/tigergraph_manager.py:115-192 | `_create_relationships`: the seven loops appended to one list; its contract is stated by CreateRelationshipsOrder and GroupSignature |
| Relationships.CreateRelationshipsOrder | backend/tigergraph_manager.py:115-192 | the edge list is the runs_on, exposes, manages, contains, uses_config, uses_secret and has_container groups concatenated in that order |
| Relationships.GroupSignature | backend/tigergraph_manager.py:118-192 | every edge of a group has the source and target vertex types of its relation |
| Relationships.RunsOnOnePerPod | backend/tigergraph_manager.py:119-126 | a pod has exactly one runs_on edge when its node is present and non-empty, and none otherwise |
| Relationships.RunsOnLength | backend/tigergraph_manager.py:119-126 | there are as many runs_on edges as pods with a node |
| Relationships.ContainsOnePerPod | backend/tigergraph_manager.py:151-158 | a pod has exactly one contains edge when its namespace is non-empty, and none otherwise |
| Relationships.ContainsLength | backend/tigergraph_manager.py:151-158 | there are as many contains edges as pods with a namespace |
| Relationships.UsesConfigPerPod | backend/tigergraph_manager.py:161-170 | a pod with a namespace has one uses_config edge per config map in that namespace; a pod without a namespace has none |
| Relationships.UsesConfigPerNamespace | backend/tigergraph_manager.py:161-170 | for any pod list and any namespace ns, the uses_config edges leaving pods of ns number (pods in ns) × (config maps in ns), and none for the empty namespace |
| Relationships.UsesSecretPerPod | backend/tigergraph_manager.py:173-182 | a pod with a namespace has one uses_secret edge per secret in that namespace; a pod without a namespace has none |
| Relationships.UsesSecretPerNamespace | backend/tigergraph_manager.py:173-182 | for any pod list and any namespace ns, the uses_secret edges leaving pods of ns number (pods in ns) × (secrets in ns), and none for the empty namespace |
| Relationships.HasContainerPerPod | backend/tigergraph_manager.py:185-192 | a pod has one has_container edge per container |
| Relationships.HasContainerLength | backend/tigergraph_manager.py:185-192 | there are as many has_container edges as containers over all pods |
| Relationships.RunsOnBatch | backend/tigergraph_manager.py:195 | the slice `edges[:len([e for e in edges if 'runs_on' in e])]`; its contract is stated by RunsOnBatchEmpty |
| Relationships.Batch | backend/tigergraph_manager.py:195-201 | the batch of one relation; its contract is stated by RunsOnBatchEmpty and BatchIsGroup |
| Relationships.RunsOnBatchEmpty | backend/tigergraph_manager.py:195 | the runs_on batch, a slice whose length counts edges with a `runs_on` key, is always empty |
| Relationships.BatchIsGroup | backend/tigergraph_manager.py:196-201 | every filter batch other than runs_on is exactly its relation's group, in order |
| Relationships.RunsOnEdgesReachNoBatch | backend/tigergraph_manager.py:195-201 | no Pod→K8sNode edge is in any of the seven batches |
| Relationships.BatchesDisjoint | backend/tigergraph_manager.py:195-201 | no edge is in two different batches |
| Relationships.HasContainerBatchLength | backend/tigergraph_manager.py:201 | the has_container batch is as long as the total container count |
| Relationships.EmptySelectorSelectsNamespace | backend/tigergraph_manager.py:205-209 | a missing or empty selector selects exactly the pods of the service's namespace, in order |
| Discovery.NamespaceRecordOf | backend/k8s_discovery.py:31-36 | a namespace record is keyed by the namespace's name, and its dictionary has exactly the keys id, name, status and creation_time |
| Discovery.NodeRecordOf | backend/k8s_discovery.py:45-53 | a node record is keyed by the node's name; its status is NodeStatus of its conditions (the last condition's type, or "Unknown"); its labels field prints the node's labels, or the empty mapping when there are none; its dictionary has exactly the keys id, name, labels, status and creation_time |
| Discovery.NodeStatus | backend/k8s_discovery.py:51 | the status is the type of the last condition, or "Unknown" when there are no conditions |
| Discovery.ContainerIdParts | backend/k8s_discovery.py:69 | a container id is the pod name, a hyphen, then the container name, and splits back into the two |
| Discovery.PortsFieldRoundTrip | backend/k8s_discovery.py:67-72 | the ports field is "" iff the container has no ports; otherwise splitting it at commas gives each port in decimal, in order |
| Discovery.ContainerRecordOf | backend/k8s_discovery.py:68-73 | a container record is keyed by the pod name, a hyphen and the container name, keeps the container's name and image, and its dictionary has exactly the keys id, name, image and ports |
| Discovery.PodContainers | backend/k8s_discovery.py:64-73 | one container record per spec container, in spec order, with its id, name, image and ports; none when the spec has none |
| Discovery.DeploymentRecordOf | backend/k8s_discovery.py:107-113 | a deployment record is keyed by the deployment's UID, keeps its name and namespace, and its dictionary has exactly the keys id, name, namespace, replicas and creation_time |
| Discovery.ConfigMapRecordOf | backend/k8s_discovery.py:121-126 | a config map record is keyed by the config map's UID, keeps its namespace, and its dictionary has exactly the keys id, name, namespace and creation_time |
| Discovery.SecretRecordOf | backend/k8s_discovery.py:134-140 | a secret record is keyed by the secret's UID, keeps its namespace, and its dictionary has exactly the keys id, name, namespace, type and creation_time |
| Discovery.RulesField | backend/k8s_discovery.py:155 | a role without rules has the rules field "" |
| Discovery.PodRecordOf | backend/k8s_discovery.py:59-83 | a pod record is keyed by the pod's UID, keeps its name, namespace, phase and node name, holds PodContainers of the pod (one record per spec container, in spec order), has no labels, and its dictionary has exactly the keys id, name, namespace, status, node, creation_time and containers |
| Discovery.ServiceRecordOf | backend/k8s_discovery.py:92-99 | a service record is keyed by the service's UID, keeps its namespace, and its dictionary has exactly the keys id, name, namespace, type, cluster_ip and creation_time (no selector) |
| Discovery.RoleRecordOf | backend/k8s_discovery.py:150-157 | a role record is keyed by the role's UID, keeps the role's namespace, has the type "Role", and its dictionary has exactly the keys id, name, namespace, type, rules and creation_time |
| Discovery.ClusterRoleRecordOf | backend/k8s_discovery.py:164-171 | a cluster-role record is keyed by its UID, has the namespace "cluster" whatever its metadata says, has the type "ClusterRole", and has the same six keys |
| Discovery.Discover | backend/k8s_discovery.py:28-39 | a failed listing gives no records; otherwise one record per object, in listing order |
| Discovery.DiscoverAll | backend/k8s_discovery.py:177-187 | `discover_all_assets`: the eight categories from their listings; its contract is stated by DiscoveredIds, DiscoveredKeys and FailureIsLocal |
| Discovery.DiscoverRbac | backend/k8s_discovery.py:145-175 | the roles then the cluster roles; its contract is stated by RbacOrder, RbacCounts and RbacIds |
| Discovery.DiscoveredIds | backend/k8s_discovery.py:28-175 | namespace and node ids are their names; pods, services, deployments, config maps, secrets, roles and cluster roles use the UID, roles first and cluster roles after them |
| Discovery.RbacIds | backend/k8s_discovery.py:145-175 | the RBAC list is as long as both listings together; entry i is keyed by role i's UID, and entry (roles + i) by cluster role i's UID |
| Discovery.RbacOrder | backend/k8s_discovery.py:145-175 | all roles come before all cluster roles; roles keep their namespace and cluster roles have "cluster" |
| Discovery.RbacCounts | backend/k8s_discovery.py:145-175 | the RBAC list has as many roles as the role listing and as many cluster roles as the cluster-role listing |
| Discovery.FailureIsLocal | backend/k8s_discovery.py:177-187 | failing one listing empties only its own category; a failed role listing keeps the cluster roles, and the other way round |
| Discovery.RolesFailureKeepsClusterRoles | backend/k8s_discovery.py:145-175 | when the role listing fails, the RBAC list is exactly the cluster-role entries of the full list, in order |
| Discovery.ClusterRolesFailureKeepsRoles | backend/k8s_discovery.py:145-175 | when the cluster-role listing fails, the RBAC list is exactly the role entries of the full list, in order |
| Discovery.DiscoveredKeys | backend/k8s_discovery.py:75-99 | pod dictionaries have no `labels` key and service dictionaries no `selector` key |
| Discovery.DiscoveredServicesExposeWholeNamespace | backend/k8s_discovery.py:92-99 | on discovered assets, a service exposes a pod iff the pod is in the service's namespace |
| AttackPaths.RiskOf | frontend/src/components/AttackPaths.tsx:52-53 | high iff the string contains "HIGH"; medium iff it contains "MEDIUM" but not "HIGH"; low iff it contains neither |
| AttackPaths.SourceOf | frontend/src/components/AttackPaths.tsx:56 | the source is the prefix up to the first " -> ", or the whole string when there is none |
| AttackPaths.TargetOf | frontend/src/components/AttackPaths.tsx:57 | undefined iff there is no " -> " |
| AttackPaths.TargetCut | frontend/src/components/AttackPaths.tsx:57 | when there is an arrow, the target is a prefix of the text after the first " -> " that contains neither " -> " nor " (" at any offset, and it ends at the end of that text or at the first " -> " or " (" in it |
| AttackPaths.ParsePath | frontend/src/components/AttackPaths.tsx:52-59 | one row built from one path string; its contract is stated by HighRoundTrip, MediumRoundTrip, SourceRoundTrip, TargetRoundTrip and RowIds |
| AttackPaths.Rows | frontend/src/components/AttackPaths.tsx:43-71 | the rows of one query answer; its contract is stated by ParseAttackPaths, RowCount and RowIds |
| AttackPaths.AppendRows | frontend/src/components/AttackPaths.tsx:51-60 | the inner loop extends the numbered rows of the paths seen so far by one numbered row per path of the item, keeping the next id one past the row count |
| AttackPaths.ParseAttackPaths | frontend/src/components/AttackPaths.tsx:43-71 | the loop yields the numbered rows of every path of every item when the query succeeded with data, and no rows otherwise; row k has id k+1 |
| AttackPaths.PathCountLength | frontend/src/components/AttackPaths.tsx:48-51 | the items' paths together are as many as the sum of their path counts |
| AttackPaths.RowCount | frontend/src/components/AttackPaths.tsx:48-51 | the row count is the sum of the items' path counts; items without paths and non-array data add nothing |
| AttackPaths.RowIds | frontend/src/components/AttackPaths.tsx:46-59 | the ids are "1", "2", … in order and pairwise distinct; each description is the raw string |
| Text.FirstOfTwoCuts | frontend/src/components/AttackPaths.tsx:57 | cutting a string at its first `q` and that piece at its first `p` yields the prefix up to the first `q` or `p`, whichever comes first, or the whole string; neither separator occurs inside it |
| Text.JoinSplit | frontend/src/components/AttackPaths.tsx:56-57 | joining the pieces of `split(sep)` with `sep` gives back the whole string, for every string and non-empty separator |
| AttackPaths.SourceRoundTrip | frontend/src/components/AttackPaths.tsx:56 | the source of `s -> rest` is `s` for a space-free `s` |
| AttackPaths.TargetRoundTrip | frontend/src/components/AttackPaths.tsx:57 | the target of `s -> t (tail` is `t` for space-free `s` and `t` |
| AttackPaths.HighRoundTrip | backend/tigergraph_manager.py:247 | the HIGH string built by the query parses back to source `s`, target `t` and risk high |
| AttackPaths.MediumRoundTrip | backend/tigergraph_manager.py:249 | the MEDIUM string parses back to source `s`, target `t` and risk medium when neither part contains "HIGH" |
| AttackPaths.NoHighInMediumForm | frontend/src/components/AttackPaths.tsx:52-53 | the MEDIUM string contains "HIGH" only if one of its two parts does |

## Left out

- `backend/main.py`: HTTP routing, CORS, module-level handles and the background discover-then-import task. This is I/O sequencing, not logic.
- `TigerGraphManager._connect`, `clear_graph`, `query_attack_paths`, `get_graph_statistics` and `visual_graph_data`. These are calls into the graph database SDK, and the query text is passed through unchanged.
- The success booleans and logging of `insert_vertices`/`insert_edges`. The model describes the upserts issued, not the store's answers or exceptions.
- `K8sAssetDiscovery.__init__` and the client `list_*` calls. Their results are the `Listing` inputs. Only the API error is caught (`ApiException`); any other exception is not modelled.
- Timestamp `isoformat()`, the node labels `str(dict)` and the rules `str(...)`. These are Python formatting; creation times are opaque optional strings, and the two printers are function parameters (`Discovery.Printer`).
- Discovery.RulesField: states only the empty case; a non-empty rule list is printed by the opaque `Printer`, so nothing more can be said about its text.
- Relationships.RunsOnOnePerPod: assumes pod ids are unique (`UniquePodIds`), because edges are counted by pod id.
- Relationships.ContainsOnePerPod: assumes pod ids are unique (`UniquePodIds`), because edges are counted by pod id.
- Relationships.UsesConfigPerPod: assumes pod ids are unique (`UniquePodIds`), because edges are counted by pod id.
- Relationships.UsesSecretPerPod: assumes pod ids are unique (`UniquePodIds`), because edges are counted by pod id.
- Relationships.HasContainerPerPod: assumes pod ids are unique (`UniquePodIds`), because edges are counted by pod id.
- Relationships.UsesConfigPerNamespace: assumes pod ids are unique (`UniquePodIds`), because an edge is attributed to a namespace through its source pod's id.
- Relationships.UsesSecretPerNamespace: assumes pod ids are unique (`UniquePodIds`), because an edge is attributed to a namespace through its source pod's id.
- AttackPaths.ParseAttackPaths: a `paths` value that is not an array makes the JavaScript throw; the model takes `paths` to be a list of strings or absent.
- The frontend's error path (the `catch` block) and its user messages, and the other frontend files (GraphVisualization, Dashboard, AssetDiscovery, App, the API client). This is rendering and HTTP glue.
- `backend/config.py` (settings loading) and `backend/check_imports.py` (a connectivity script).

=== FILE: assets.dfy ===
/** The asset records one discovery pass produces, one datatype per kind of
    cluster object, and their view as the string-keyed dictionaries the graph
    loader receives (backend/k8s_discovery.py builds them, backend/
    tigergraph_manager.py consumes them). A field of type `Option` whose `None`
    stands for "key absent" is said so at the field. */
module Assets {

  import opened Wrappers

  /** A Kubernetes label mapping (label key to label value). */
  type Labels = map<string, string>

  datatype NamespaceRecord = NamespaceRecord(
    id: string,
    name: string,
    status: Option<string>,
    creationTime: Option<string>)

  /** `labels` is the printed form of the node's label mapping. */
  datatype NodeRecord = NodeRecord(
    id: string,
    name: string,
    labels: string,
    status: string,
    creationTime: Option<string>)

  /** `ports` is the comma-separated list of the container's ports. */
  datatype ContainerRecord = ContainerRecord(
    id: string,
    name: string,
    image: Option<string>,
    ports: string)

  /** `labels == None` means the record has no `labels` key at all; the
      relationship matcher then treats the pod as unlabelled. */
  datatype PodRecord = PodRecord(
    id: string,
    name: string,
    namespace: Option<string>,
    status: Option<string>,
    node: Option<string>,
    creationTime: Option<string>,
    containers: seq<ContainerRecord>,
    labels: Option<Labels>)

  /** `selector == None` means the record has no `selector` key at all; the
      relationship matcher then uses the empty selector. */
  datatype ServiceRecord = ServiceRecord(
    id: string,
    name: string,
    namespace: Option<string>,
    serviceType: Option<string>,
    clusterIp: Option<string>,
    creationTime: Option<string>,
    selector: Option<Labels>)

  datatype DeploymentRecord = DeploymentRecord(
    id: string,
    name: string,
    namespace: Option<string>,
    replicas: Option<int>,
    creationTime: Option<string>)

  datatype ConfigMapRecord = ConfigMapRecord(
    id: string,
    name: string,
    namespace: Option<string>,
    creationTime: Option<string>)

  datatype SecretRecord = SecretRecord(
    id: string,
    name: string,
    namespace: Option<string>,
    secretType: Option<string>,
    creationTime: Option<string>)

  datatype RoleKind = Role | ClusterRole {
    function Name(): string {
      match this
      case Role => "Role"
      case ClusterRole => "ClusterRole"
    }
  }

  /** `rules` is the printed rule list, or "" for a role without rules. */
  datatype RbacRecord = RbacRecord(
    id: string,
    name: string,
    namespace: Option<string>,
    kind: RoleKind,
    rules: string,
    creationTime: Option<string>)

  /** One discovery snapshot: the eight asset categories. */
  datatype Snapshot = Snapshot(
    namespaces: seq<NamespaceRecord>,
    nodes: seq<NodeRecord>,
    pods: seq<PodRecord>,
    services: seq<ServiceRecord>,
    deployments: seq<DeploymentRecord>,
    configmaps: seq<ConfigMapRecord>,
    secrets: seq<SecretRecord>,
    rbac: seq<RbacRecord>)

  /** The number of containers over all pods. */
  function TotalContainers(pods: seq<PodRecord>): nat {
    if |pods| == 0 then 0 else |pods[0].containers| + TotalContainers(pods[1..])
  }

  /** A dictionary value as the loader sees it. */
  datatype Value =
    | Null
    | Str(s: string)
    | Int(i: int)
    | StrMap(m: Labels)
    | Dicts(items: seq<map<string, Value>>)

  type Dict = map<string, Value>

  /** The dictionary carries `id` as its "id" entry. */
  predicate KeyedBy(d: Dict, id: string) {
    "id" in d && d["id"] == Str(id)
  }

  function OptStr(o: Option<string>): Value {
    match o
    case None => Null
    case Some(s) => Str(s)
  }

  function OptInt(o: Option<int>): Value {
    match o
    case None => Null
    case Some(i) => Int(i)
  }

  function NamespaceDict(r: NamespaceRecord): (d: Dict)
    ensures KeyedBy(d, r.id)
  {
    map["id" := Str(r.id), "name" := Str(r.name), "status" := OptStr(r.status),
        "creation_time" := OptStr(r.creationTime)]
  }

  function NodeDict(r: NodeRecord): (d: Dict)
    ensures KeyedBy(d, r.id)
  {
    map["id" := Str(r.id), "name" := Str(r.name), "labels" := Str(r.labels),
        "status" := Str(r.status), "creation_time" := OptStr(r.creationTime)]
  }

  function ContainerDict(r: ContainerRecord): (d: Dict)
    ensures KeyedBy(d, r.id)
  {
    map["id" := Str(r.id), "name" := Str(r.name), "image" := OptStr(r.image),
        "ports" := Str(r.ports)]
  }

  function ContainerDicts(cs: seq<ContainerRecord>): seq<Dict> {
    seq(|cs|, i requires 0 <= i < |cs| => ContainerDict(cs[i]))
  }

  /** `d`, plus the entry `key` when the optional mapping is present. */
  function WithOptional(d: Dict, key: string, o: Option<Labels>): Dict {
    match o
    case None => d
    case Some(m) => d[key := StrMap(m)]
  }

  function PodDict(r: PodRecord): (d: Dict)
    ensures KeyedBy(d, r.id)
  {
    var base := map["id" := Str(r.id), "name" := Str(r.name), "namespace" := OptStr(r.namespace),
                     "status" := OptStr(r.status), "node" := OptStr(r.node),
                     "creation_time" := OptStr(r.creationTime),
                     "containers" := Dicts(ContainerDicts(r.containers))];
    WithOptional(base, "labels", r.labels)
  }

  function ServiceDict(r: ServiceRecord): (d: Dict)
    ensures KeyedBy(d, r.id)
  {
    var base := map["id" := Str(r.id), "name" := Str(r.name), "namespace" := OptStr(r.namespace),
                     "type" := OptStr(r.serviceType), "cluster_ip" := OptStr(r.clusterIp),
                     "creation_time" := OptStr(r.creationTime)];
    WithOptional(base, "selector", r.selector)
  }

  function DeploymentDict(r: DeploymentRecord): (d: Dict)
    ensures KeyedBy(d, r.id)
  {
    map["id" := Str(r.id), "name" := Str(r.name), "namespace" := OptStr(r.namespace),
        "replicas" := OptInt(r.replicas), "creation_time" := OptStr(r.creationTime)]
  }

  function ConfigMapDict(r: ConfigMapRecord): (d: Dict)
    ensures KeyedBy(d, r.id)
  {
    map["id" := Str(r.id), "name" := Str(r.name), "namespace" := OptStr(r.namespace),
        "creation_time" := OptStr(r.creationTime)]
  }

  function SecretDict(r: SecretRecord): (d: Dict)
    ensures KeyedBy(d, r.id)
  {
    map["id" := Str(r.id), "name" := Str(r.name), "namespace" := OptStr(r.namespace),
        "type" := OptStr(r.secretType), "creation_time" := OptStr(r.creationTime)]
  }

  function RbacDict(r: RbacRecord): (d: Dict)
    ensures KeyedBy(d, r.id)
  {
    map["id" := Str(r.id), "name" := Str(r.name), "namespace" := OptStr(r.namespace),
        "type" := Str(r.kind.Name()), "rules" := Str(r.rules),
        "creation_time" := OptStr(r.creationTime)]
  }
}

=== FILE: attack_paths.dfy ===
/** The attack-path table of the web front end
    (frontend/src/components/AttackPaths.tsx): the query answer is a list of
    items, each possibly carrying `paths`, strings of the shape
    `source + " -> " + target + " (RISK: LEVEL)"` (built by the graph query in
    backend/tigergraph_manager.py). Every string becomes one table row with a
    running id, the source, the target and a risk level read back from the
    text. */
module AttackPaths {

  import opened Wrappers
  import opened Seqs
  import opened Text

  const Arrow: string := " -> "
  const Paren: string := " ("

  datatype Risk = High | Medium | Low {
    function Name(): string {
      match this
      case High => "high"
      case Medium => "medium"
      case Low => "low"
    }
  }

  /** The risk level is read from the whole string: "HIGH" anywhere wins over
      "MEDIUM" anywhere, and a string with neither is low. */
  function RiskOf(path: string): (r: Risk)
    ensures r == High <==> Contains(path, "HIGH")
    ensures r == Medium <==> !Contains(path, "HIGH") && Contains(path, "MEDIUM")
    ensures r == Low <==> !Contains(path, "HIGH") && !Contains(path, "MEDIUM")
  {
    if Contains(path, "HIGH") then High
    else if Contains(path, "MEDIUM") then Medium
    else Low
  }

  /** `path.split(' -> ')[0]`: the text before the first arrow, or the whole
      string when there is no arrow. */
  function SourceOf(path: string): (s: string)
    ensures |s| <= |path| && s == path[..|s|]
    ensures forall j :: 0 <= j < |s| ==> !OccursAt(path, Arrow, j)
    ensures |s| == |path| || OccursAt(path, Arrow, |s|)
  {
    SplitHead(path, Arrow);
    Split(path, Arrow)[0]
  }

  /** `path.split(' -> ')[1]?.split(' (')[0]`: absent exactly when there is
      no arrow; `TargetCut` states where the target is cut. */
  function TargetOf(path: string): (r: Option<string>)
    ensures r.None? <==> !Contains(path, Arrow)
  {
    var parts := Split(path, Arrow);
    SplitHasSecondPiece(path, Arrow);
    if |parts| < 2 then None else Some(Split(parts[1], Paren)[0])
  }

  /** The target is the text after the first arrow, cut at the first following
      arrow or " (", whichever comes first, or at the end of the string. */
  lemma TargetCut(path: string)
    requires Contains(path, Arrow)
    ensures var r := TargetOf(path).value;
      var rest := path[|SourceOf(path)| + |Arrow|..];
      && |r| <= |rest| && r == rest[..|r|]
      && !Contains(r, Arrow) && !Contains(r, Paren)
      && (forall j :: 0 <= j < |r| ==> !OccursAt(rest, Arrow, j) && !OccursAt(rest, Paren, j))
      && (|r| == |rest| || OccursAt(rest, Arrow, |r|) || OccursAt(rest, Paren, |r|))
  {
    var rest := path[|SourceOf(path)| + |Arrow|..];
    assert TargetOf(path).value == Split(Split(rest, Arrow)[0], Paren)[0] by {
      SplitHasSecondPiece(path, Arrow);
    }
    FirstOfTwoCuts(rest, Arrow, Paren);
  }

  /** One row of the table. `target == None` is the undefined target of a
      string without an arrow. */
  datatype AttackPath = AttackPath(
    id: string,
    source: string,
    target: Option<string>,
    riskLevel: Risk,
    description: string)

  /** The row for the `n`-th string overall (counting from 1). */
  function ParsePath(n: nat, path: string): AttackPath {
    AttackPath(NatToString(n), SourceOf(path), TargetOf(path), RiskOf(path), path)
  }

  /** One element of the answer; `paths == None` when it has no truthy
      `paths` entry. */
  datatype QueryItem = QueryItem(paths: Option<seq<string>>)

  /** The answer's `data`: an array of items, or some other value. */
  datatype QueryData = Array(items: seq<QueryItem>) | NotArray

  /** `data == None` when the answer has no truthy `data` entry. */
  datatype QueryResult = QueryResult(status: string, data: Option<QueryData>)

  function ItemPaths(item: QueryItem): seq<string> {
    item.paths.GetOr([])
  }

  /** All path strings of the answer, item after item. */
  function AllPaths(data: QueryData): seq<string> {
    match data
    case NotArray => []
    case Array(items) => FlatMap(ItemPaths, items)
  }

  /** The number of path strings the items carry. */
  function PathCount(items: seq<QueryItem>): nat {
    if |items| == 0 then 0 else |ItemPaths(items[0])| + PathCount(items[1..])
  }

  /** The rows for a sequence of strings, numbered from 1. */
  function Numbered(ps: seq<string>): seq<AttackPath> {
    seq(|ps|, k requires 0 <= k < |ps| => ParsePath(k + 1, ps[k]))
  }

  /** The table: the numbered rows of all strings when the query succeeded
      with data, and nothing otherwise. */
  function Rows(result: QueryResult): seq<AttackPath> {
    if result.status == "success" && result.data.Some? then Numbered(AllPaths(result.data.value))
    else []
  }

  /** The parsing loop of `handleQuery`: a running id over the strings of all
      items, in order. */
  method ParseAttackPaths(result: QueryResult) returns (paths: seq<AttackPath>)
    ensures paths == Rows(result)
    ensures forall k :: 0 <= k < |paths| ==> paths[k].id == NatToString(k + 1)
  {
    paths := [];
    if result.status == "success" && result.data.Some? {
      var id := 1;
      match result.data.value {
        case NotArray =>
        case Array(items) =>
          var i := 0;
          while i < |items|
            invariant 0 <= i <= |items|
            invariant paths == Numbered(FlatMap(ItemPaths, items[..i]))
            invariant id == |paths| + 1
          {
            if items[i].paths.Some? {
              paths, id := AppendRows(paths, id, FlatMap(ItemPaths, items[..i]), items[i].paths.value);
            }
            assert items[..i + 1] == items[..i] + [items[i]];
            FlatMapSnoc(items[..i], items[i]);
            i := i + 1;
          }
          assert items[..i] == items;
      }
    }
  }

  /** The inner loop of `handleQuery`: one row per string of one item, the
      running id continuing from the rows of the strings `done` before it. */
  method AppendRows(paths0: seq<AttackPath>, id0: nat, done: seq<string>, ps: seq<string>)
    returns (paths: seq<AttackPath>, id: nat)
    requires paths0 == Numbered(done) && id0 == |paths0| + 1
    ensures paths == Numbered(done + ps) && id == |paths| + 1
  {
    paths, id := paths0, id0;
    var j := 0;
    while j < |ps|
      invariant 0 <= j <= |ps|
      invariant paths == Numbered(done + ps[..j])
      invariant id == |paths| + 1
    {
      NumberedSnoc(done + ps[..j], ps[j]);
      assert done + ps[..j + 1] == (done + ps[..j]) + [ps[j]];
      paths := paths + [ParsePath(id, ps[j])];
      id := id + 1;
      j := j + 1;
    }
    assert ps[..j] == ps;
  }

  lemma NumberedSnoc(ps: seq<string>, p: string)
    ensures Numbered(ps + [p]) == Numbered(ps) + [ParsePath(|ps| + 1, p)]
  {
  }

  lemma FlatMapSnoc(items: seq<QueryItem>, item: QueryItem)
    ensures FlatMap(ItemPaths, items + [item]) == FlatMap(ItemPaths, items) + ItemPaths(item)
  {
    FlatMapConcat(ItemPaths, items, [item]);
    assert [item][1..] == [];
  }

  /** The strings of all items number the sum of the items' path counts. */
  lemma {:induction false} PathCountLength(items: seq<QueryItem>)
    ensures |FlatMap(ItemPaths, items)| == PathCount(items)
  {
    if |items| > 0 {
      PathCountLength(items[1..]);
    }
  }

  /** Every string of every item yields exactly one row; items without
      `paths` and non-array data yield none. */
  lemma RowCount(items: seq<QueryItem>)
    ensures |Rows(QueryResult("success", Some(Array(items))))| == PathCount(items)
    ensures Rows(QueryResult("success", Some(NotArray))) == []
  {
    PathCountLength(items);
  }

  /** The ids are "1", "2", … in row order, hence pairwise distinct, and each
      row describes its string verbatim. */
  lemma RowIds(result: QueryResult)
    ensures forall k :: 0 <= k < |Rows(result)| ==> Rows(result)[k].id == NatToString(k + 1)
    ensures forall k, l :: 0 <= k < l < |Rows(result)| ==> Rows(result)[k].id != Rows(result)[l].id
    ensures result.status == "success" && result.data.Some? ==>
      forall k :: 0 <= k < |Rows(result)| ==> Rows(result)[k].description == AllPaths(result.data.value)[k]
  {
    forall k, l | 0 <= k < l < |Rows(result)|
      ensures Rows(result)[k].id != Rows(result)[l].id
    {
      NatToStringInjective(k + 1, l + 1);
    }
  }

  /** A space-free name followed by an arrow is read back as the source. */
  lemma SourceRoundTrip(s: string, rest: string)
    requires ' ' !in s
    ensures SourceOf(s + Arrow + rest) == s
  {
    var path := s + Arrow + rest;
    assert OccursAt(path, Arrow, |s|) by {
      assert path[|s|..|s| + |Arrow|] == Arrow;
    }
    forall j | 0 <= j < |s|
      ensures !OccursAt(path, Arrow, j)
    {
      assert path[j] == s[j];
      assert s[j] in s;
      NotOccursAt(path, Arrow, j);
    }
  }

  /** In `t + " (" + tail` with `t` space-free, the only prefix free of
      " (" that ends at the end, an arrow or a " (" is `t` itself. */
  lemma CutBeforeParen(t: string, tail: string, r: string)
    requires ' ' !in t
    requires var rest := t + Paren + tail;
      && |r| <= |rest| && r == rest[..|r|] && !Contains(r, Paren)
      && (|r| == |rest| || OccursAt(rest, Arrow, |r|) || OccursAt(rest, Paren, |r|))
    ensures r == t
  {
    var rest := t + Paren + tail;
    forall j | 0 <= j < |t|
      ensures !OccursAt(rest, Arrow, j) && !OccursAt(rest, Paren, j)
    {
      assert rest[j] == t[j];
      assert t[j] in t;
      NotOccursAt(rest, Arrow, j);
      NotOccursAt(rest, Paren, j);
    }
    assert rest[|t| + 1] == '(';
    NotOccursAt(rest, Arrow, |t| + 1);
    NotOccursAt(rest, Paren, |t| + 1);
    assert |r| >= |t| + 2 ==> OccursAt(r, Paren, |t|) by {
      if |r| >= |t| + 2 {
        assert r[|t|..|t| + |Paren|] == rest[|t|..|t| + |Paren|];
      }
    }
    assert |r| == |t|;
    assert r == rest[..|t|];
  }

  /** After the arrow, a space-free name followed by " (" is read back as the
      target, whatever follows. */
  lemma TargetRoundTrip(s: string, t: string, tail: string)
    requires ' ' !in s && ' ' !in t
    ensures TargetOf(s + Arrow + t + Paren + tail) == Some(t)
  {
    var rest := t + Paren + tail;
    var path := s + Arrow + rest;
    assert path == s + Arrow + t + Paren + tail;
    SourceRoundTrip(s, rest);
    assert rest == path[|s| + |Arrow|..];
    assert OccursAt(path, Arrow, |s|) by {
      assert path[|s|..|s| + |Arrow|] == Arrow;
    }
    TargetCut(path);
    CutBeforeParen(t, tail, TargetOf(path).value);
  }

  /** The HIGH form `s -> t (RISK: HIGH)` is read back as source `s`, target
      `t`, risk high. */
  lemma HighRoundTrip(n: nat, s: string, t: string)
    requires ' ' !in s && ' ' !in t
    ensures var row := ParsePath(n, s + Arrow + t + Paren + "RISK: HIGH)");
      row.source == s && row.target == Some(t) && row.riskLevel == High
  {
    var path := s + Arrow + t + Paren + "RISK: HIGH)";
    SourceRoundTrip(s, t + Paren + "RISK: HIGH)");
    assert path == s + Arrow + (t + Paren + "RISK: HIGH)");
    TargetRoundTrip(s, t, "RISK: HIGH)");
    var at := |s| + |Arrow| + |t| + |Paren| + 6;
    assert OccursAt(path, "HIGH", at) by {
      assert path[at..at + 4] == "HIGH";
    }
  }

  /** The MEDIUM form `s -> t (RISK: MEDIUM)` is read back as source `s`,
      target `t`, risk medium, provided neither name contains "HIGH". */
  lemma MediumRoundTrip(n: nat, s: string, t: string)
    requires ' ' !in s && ' ' !in t
    requires !Contains(s, "HIGH") && !Contains(t, "HIGH")
    ensures var row := ParsePath(n, s + Arrow + t + Paren + "RISK: MEDIUM)");
      row.source == s && row.target == Some(t) && row.riskLevel == Medium
  {
    var path := s + Arrow + t + Paren + "RISK: MEDIUM)";
    SourceRoundTrip(s, t + Paren + "RISK: MEDIUM)");
    assert path == s + Arrow + (t + Paren + "RISK: MEDIUM)");
    TargetRoundTrip(s, t, "RISK: MEDIUM)");
    var at := |s| + |Arrow| + |t| + |Paren| + 6;
    assert OccursAt(path, "MEDIUM", at) by {
      assert path[at..at + 6] == "MEDIUM";
    }
    NoHighInMediumForm(s, t);
  }

  /** The MEDIUM form contains "HIGH" only if one of the names does. */
  lemma NoHighInMediumForm(s: string, t: string)
    requires !Contains(s, "HIGH") && !Contains(t, "HIGH")
    ensures !Contains(s + Arrow + t + Paren + "RISK: MEDIUM)", "HIGH")
  {
    var m1 := "(RISK:" + [' '] + "MEDIUM)";
    var m2 := t + [' '] + m1;
    var m3 := "->" + [' '] + m2;
    FirstCharAbsent("MEDIUM)", "HIGH");
    FirstCharAbsent("(RISK:", "HIGH");
    FirstCharAbsent("->", "HIGH");
    NotAcrossSeparator("(RISK:", ' ', "MEDIUM)", "HIGH");
    NotAcrossSeparator(t, ' ', m1, "HIGH");
    NotAcrossSeparator("->", ' ', m2, "HIGH");
    NotAcrossSeparator(s, ' ', m3, "HIGH");
    assert Paren + "RISK: MEDIUM)" == [' '] + m1;
    assert Arrow + t + Paren + "RISK: MEDIUM)" == [' '] + m3;
    assert s + Arrow + t + Paren + "RISK: MEDIUM)" == s + [' '] + m3;
  }
}

=== FILE: discovery.dfy ===
/** Asset discovery (`K8sAssetDiscovery` in backend/k8s_discovery.py): how
    each object returned by the cluster API becomes an asset record, and how
    one failed listing degrades only its own category. The API calls
    themselves are inputs: each listing is either the returned objects or a
    failure. */
module Discovery {

  import opened Wrappers
  import opened Seqs
  import Text
  import opened Assets
  import opened Relationships

  // ---------------------------------------------------------------------------
  // The cluster API's objects, reduced to the fields discovery reads

  /** `creationTimestamp` is the timestamp already printed in ISO form. */
  datatype ObjectMeta = ObjectMeta(
    name: string,
    namespace: Option<string>,
    uid: string,
    labels: Option<Labels>,
    creationTimestamp: Option<string>)

  datatype NamespaceObject = NamespaceObject(metadata: ObjectMeta, phase: Option<string>)

  datatype NodeCondition = NodeCondition(conditionType: string)

  datatype NodeObject = NodeObject(metadata: ObjectMeta, conditions: Option<seq<NodeCondition>>)

  datatype ContainerPort = ContainerPort(containerPort: int)

  datatype ContainerSpec = ContainerSpec(
    name: string,
    image: Option<string>,
    ports: Option<seq<ContainerPort>>)

  datatype PodObject = PodObject(
    metadata: ObjectMeta,
    containers: Option<seq<ContainerSpec>>,
    nodeName: Option<string>,
    phase: Option<string>)

  datatype ServiceObject = ServiceObject(
    metadata: ObjectMeta,
    serviceType: Option<string>,
    clusterIp: Option<string>)

  datatype DeploymentObject = DeploymentObject(metadata: ObjectMeta, replicas: Option<int>)

  datatype ConfigMapObject = ConfigMapObject(metadata: ObjectMeta)

  datatype SecretObject = SecretObject(metadata: ObjectMeta, secretType: Option<string>)

  datatype PolicyRule = PolicyRule(apiGroups: seq<string>, resources: seq<string>, verbs: seq<string>)

  /** A Role or a ClusterRole. */
  datatype RoleObject = RoleObject(metadata: ObjectMeta, rules: Option<seq<PolicyRule>>)

  /** The outcome of one listing call: the objects, or an API error. */
  datatype Listing<T> = Listed(items: seq<T>) | ListFailed

  /** Python's printing of a label mapping and of a rule list, which the
      model treats as opaque text. */
  datatype Printer = Printer(labels: Labels -> string, rules: seq<PolicyRule> -> string)

  /** What the nine listing calls returned. */
  datatype Cluster = Cluster(
    namespaces: Listing<NamespaceObject>,
    nodes: Listing<NodeObject>,
    pods: Listing<PodObject>,
    services: Listing<ServiceObject>,
    deployments: Listing<DeploymentObject>,
    configmaps: Listing<ConfigMapObject>,
    secrets: Listing<SecretObject>,
    roles: Listing<RoleObject>,
    clusterRoles: Listing<RoleObject>)

  // ---------------------------------------------------------------------------
  // Record construction, one object at a time

  /** A namespace is keyed by its name, not its UID. */
  function NamespaceRecordOf(ns: NamespaceObject): (r: NamespaceRecord)
    ensures r.id == ns.metadata.name && r.name == ns.metadata.name
    ensures NamespaceDict(r).Keys == {"id", "name", "status", "creation_time"}
  {
    NamespaceRecord(ns.metadata.name, ns.metadata.name, ns.phase, ns.metadata.creationTimestamp)
  }

  /** The type of the last condition, or "Unknown" when there is none. */
  function NodeStatus(conditions: Option<seq<NodeCondition>>): (r: string)
    ensures conditions.None? || conditions.value == [] ==> r == "Unknown"
    ensures conditions.Some? && conditions.value != [] ==>
      r == conditions.value[|conditions.value| - 1].conditionType
  {
    match conditions
    case Some(cs) => if |cs| > 0 then cs[|cs| - 1].conditionType else "Unknown"
    case None => "Unknown"
  }

  /** A node is keyed by its name; a missing label mapping prints as the
      empty one. */
  function NodeRecordOf(node: NodeObject, printer: Printer): (r: NodeRecord)
    ensures r.id == node.metadata.name && r.name == node.metadata.name
    ensures r.labels == printer.labels(node.metadata.labels.GetOr(map[]))
    ensures r.status == NodeStatus(node.conditions)
    ensures NodeDict(r).Keys == {"id", "name", "labels", "status", "creation_time"}
  {
    var labels := match node.metadata.labels
      case Some(l) => if |l| > 0 then l else map[]
      case None => map[];
    NodeRecord(node.metadata.name, node.metadata.name, printer.labels(labels),
               NodeStatus(node.conditions), node.metadata.creationTimestamp)
  }

  /** A container's id: the pod name, a hyphen, the container name. */
  function ContainerId(podName: string, containerName: string): string {
    podName + "-" + containerName
  }

  /** The container id splits back into the pod name and the container name. */
  lemma ContainerIdParts(podName: string, containerName: string)
    ensures var id := ContainerId(podName, containerName);
      |id| == |podName| + 1 + |containerName|
      && id[..|podName|] == podName && id[|podName|] == '-'
      && id[|podName| + 1..] == containerName
  {
  }

  function PortStrings(ports: Option<seq<ContainerPort>>): seq<string> {
    Map((p: ContainerPort) => Text.IntToString(p.containerPort), ports.GetOr([]))
  }

  /** The ports field: the decimal ports joined with commas, "" when none. */
  function PortsField(ports: Option<seq<ContainerPort>>): string {
    var strs := PortStrings(ports);
    if |strs| > 0 then Text.Join(strs, ",") else ""
  }

  /** The ports field is empty exactly when there are no ports, and otherwise
      splits on commas back into one decimal string per port, in order. */
  lemma PortsFieldRoundTrip(ports: Option<seq<ContainerPort>>)
    ensures PortsField(ports) == "" <==> |ports.GetOr([])| == 0
    ensures |ports.GetOr([])| > 0 ==>
      Text.Split(PortsField(ports), ",") == PortStrings(ports)
  {
    var strs := PortStrings(ports);
    if |strs| > 0 {
      forall x | x in strs ensures ',' !in x {
        var i :| 0 <= i < |strs| && strs[i] == x;
      }
      Text.SplitJoin(strs, ',');
      JoinNonEmpty(strs, ",");
    }
  }

  lemma {:induction false} JoinNonEmpty(xs: seq<string>, sep: string)
    requires |xs| > 0 && xs[0] != ""
    ensures Text.Join(xs, sep) != ""
  {
    if |xs| > 1 {
      assert Text.Join(xs, sep)[0] == xs[0][0];
    }
  }

  /** A container is keyed by its pod's name and its own name. */
  function ContainerRecordOf(podName: string, c: ContainerSpec): (r: ContainerRecord)
    ensures r.id == ContainerId(podName, c.name) && r.name == c.name && r.image == c.image
    ensures ContainerDict(r).Keys == {"id", "name", "image", "ports"}
  {
    ContainerRecord(ContainerId(podName, c.name), c.name, c.image, PortsField(c.ports))
  }

  /** One container record per container of the pod spec, in spec order. */
  function PodContainers(pod: PodObject): (r: seq<ContainerRecord>)
    ensures |r| == |pod.containers.GetOr([])|
    ensures forall i :: 0 <= i < |r| ==>
      var c := pod.containers.value[i];
      r[i].id == ContainerId(pod.metadata.name, c.name) && r[i].name == c.name
      && r[i].image == c.image && r[i].ports == PortsField(c.ports)
  {
    match pod.containers
    case Some(cs) =>
      if |cs| > 0 then Map((c: ContainerSpec) => ContainerRecordOf(pod.metadata.name, c), cs) else []
    case None => []
  }

  /** Pod records carry no `labels` key: `labels` is `None`. */
  function PodRecordOf(pod: PodObject): (r: PodRecord)
    ensures r.id == pod.metadata.uid && r.name == pod.metadata.name && r.namespace == pod.metadata.namespace
    ensures r.node == pod.nodeName && r.status == pod.phase && r.labels.None?
    ensures r.containers == PodContainers(pod)
    ensures PodDict(r).Keys == {"id", "name", "namespace", "status", "node", "creation_time", "containers"}
  {
    PodRecord(pod.metadata.uid, pod.metadata.name, pod.metadata.namespace, pod.phase,
              pod.nodeName, pod.metadata.creationTimestamp, PodContainers(pod), None)
  }

  /** Service records carry no `selector` key: `selector` is `None`. */
  function ServiceRecordOf(svc: ServiceObject): (r: ServiceRecord)
    ensures r.id == svc.metadata.uid && r.namespace == svc.metadata.namespace
    ensures ServiceDict(r).Keys == {"id", "name", "namespace", "type", "cluster_ip", "creation_time"}
  {
    ServiceRecord(svc.metadata.uid, svc.metadata.name, svc.metadata.namespace, svc.serviceType,
                  svc.clusterIp, svc.metadata.creationTimestamp, None)
  }

  function DeploymentRecordOf(d: DeploymentObject): (r: DeploymentRecord)
    ensures r.id == d.metadata.uid && r.name == d.metadata.name && r.namespace == d.metadata.namespace
    ensures DeploymentDict(r).Keys == {"id", "name", "namespace", "replicas", "creation_time"}
  {
    DeploymentRecord(d.metadata.uid, d.metadata.name, d.metadata.namespace, d.replicas,
                     d.metadata.creationTimestamp)
  }

  function ConfigMapRecordOf(c: ConfigMapObject): (r: ConfigMapRecord)
    ensures r.id == c.metadata.uid && r.namespace == c.metadata.namespace
    ensures ConfigMapDict(r).Keys == {"id", "name", "namespace", "creation_time"}
  {
    ConfigMapRecord(c.metadata.uid, c.metadata.name, c.metadata.namespace, c.metadata.creationTimestamp)
  }

  function SecretRecordOf(s: SecretObject): (r: SecretRecord)
    ensures r.id == s.metadata.uid && r.namespace == s.metadata.namespace
    ensures SecretDict(r).Keys == {"id", "name", "namespace", "type", "creation_time"}
  {
    SecretRecord(s.metadata.uid, s.metadata.name, s.metadata.namespace, s.secretType,
                 s.metadata.creationTimestamp)
  }

  /** The printed rule list, or "" when the role has no rules. */
  function RulesField(rules: Option<seq<PolicyRule>>, printer: Printer): (r: string)
    ensures rules.None? || rules.value == [] ==> r == ""
  {
    match rules
    case Some(rs) => if |rs| > 0 then printer.rules(rs) else ""
    case None => ""
  }

  /** A namespaced role keeps its namespace and has the type "Role". */
  function RoleRecordOf(role: RoleObject, printer: Printer): (r: RbacRecord)
    ensures r.id == role.metadata.uid && r.namespace == role.metadata.namespace
    ensures RbacDict(r)["type"] == Str("Role")
    ensures RbacDict(r).Keys == {"id", "name", "namespace", "type", "rules", "creation_time"}
  {
    RbacRecord(role.metadata.uid, role.metadata.name, role.metadata.namespace, Role,
               RulesField(role.rules, printer), role.metadata.creationTimestamp)
  }

  /** A cluster role has the namespace "cluster", whatever its metadata says,
      and the type "ClusterRole". */
  function ClusterRoleRecordOf(cr: RoleObject, printer: Printer): (r: RbacRecord)
    ensures r.id == cr.metadata.uid && r.namespace == Some("cluster")
    ensures RbacDict(r)["type"] == Str("ClusterRole")
    ensures RbacDict(r).Keys == {"id", "name", "namespace", "type", "rules", "creation_time"}
  {
    RbacRecord(cr.metadata.uid, cr.metadata.name, Some("cluster"), ClusterRole,
               RulesField(cr.rules, printer), cr.metadata.creationTimestamp)
  }

  // ---------------------------------------------------------------------------
  // Discovery, one category at a time

  /** A listing's records, one per object in listing order, or none when the
      listing failed. */
  function Discover<T, R>(listing: Listing<T>, build: T -> R): (r: seq<R>)
    ensures listing.ListFailed? ==> r == []
    ensures listing.Listed? ==>
      |r| == |listing.items| && forall i :: 0 <= i < |r| ==> r[i] == build(listing.items[i])
  {
    match listing
    case Listed(items) => Map(build, items)
    case ListFailed => []
  }

  /** `discover_rbac`: namespaced roles, then cluster roles; each listing
      fails on its own. */
  function DiscoverRbac(roles: Listing<RoleObject>, clusterRoles: Listing<RoleObject>, printer: Printer): seq<RbacRecord> {
    Discover(roles, (r: RoleObject) => RoleRecordOf(r, printer))
    + Discover(clusterRoles, (r: RoleObject) => ClusterRoleRecordOf(r, printer))
  }

  /** `discover_all_assets`. */
  function DiscoverAll(c: Cluster, printer: Printer): Snapshot {
    Snapshot(
      Discover(c.namespaces, NamespaceRecordOf),
      Discover(c.nodes, (n: NodeObject) => NodeRecordOf(n, printer)),
      Discover(c.pods, PodRecordOf),
      Discover(c.services, ServiceRecordOf),
      Discover(c.deployments, DeploymentRecordOf),
      Discover(c.configmaps, ConfigMapRecordOf),
      Discover(c.secrets, SecretRecordOf),
      DiscoverRbac(c.roles, c.clusterRoles, printer))
  }

  // ---------------------------------------------------------------------------
  // Properties

  /** Namespace and node ids are their names; every other kind uses the UID. */
  lemma DiscoveredIds(c: Cluster, printer: Printer)
    ensures var a := DiscoverAll(c, printer);
      && (c.namespaces.Listed? ==> forall i :: 0 <= i < |a.namespaces| ==>
            a.namespaces[i].id == c.namespaces.items[i].metadata.name)
      && (c.nodes.Listed? ==> forall i :: 0 <= i < |a.nodes| ==>
            a.nodes[i].id == c.nodes.items[i].metadata.name)
      && (c.pods.Listed? ==> forall i :: 0 <= i < |a.pods| ==>
            a.pods[i].id == c.pods.items[i].metadata.uid)
      && (c.services.Listed? ==> forall i :: 0 <= i < |a.services| ==>
            a.services[i].id == c.services.items[i].metadata.uid)
      && (c.deployments.Listed? ==> forall i :: 0 <= i < |a.deployments| ==>
            a.deployments[i].id == c.deployments.items[i].metadata.uid)
      && (c.configmaps.Listed? ==> forall i :: 0 <= i < |a.configmaps| ==>
            a.configmaps[i].id == c.configmaps.items[i].metadata.uid)
      && (c.secrets.Listed? ==> forall i :: 0 <= i < |a.secrets| ==>
            a.secrets[i].id == c.secrets.items[i].metadata.uid)
      && |a.rbac| == Size(c.roles) + Size(c.clusterRoles)
      && (c.roles.Listed? ==> forall i :: 0 <= i < |c.roles.items| ==>
            a.rbac[i].id == c.roles.items[i].metadata.uid)
      && (c.clusterRoles.Listed? ==> forall i :: 0 <= i < |c.clusterRoles.items| ==>
            a.rbac[Size(c.roles) + i].id == c.clusterRoles.items[i].metadata.uid)
  {
    RbacIds(c.roles, c.clusterRoles, printer);
  }

  /** Roles, then cluster roles, each record keyed by its object's UID. */
  lemma RbacIds(roles: Listing<RoleObject>, clusterRoles: Listing<RoleObject>, printer: Printer)
    ensures var r := DiscoverRbac(roles, clusterRoles, printer);
      && |r| == Size(roles) + Size(clusterRoles)
      && (roles.Listed? ==> forall i :: 0 <= i < |roles.items| ==> r[i].id == roles.items[i].metadata.uid)
      && (clusterRoles.Listed? ==> forall i :: 0 <= i < |clusterRoles.items| ==>
            r[Size(roles) + i].id == clusterRoles.items[i].metadata.uid)
  {
    var rs := Discover(roles, (o: RoleObject) => RoleRecordOf(o, printer));
    var crs := Discover(clusterRoles, (o: RoleObject) => ClusterRoleRecordOf(o, printer));
    assert |rs| == Size(roles) && |crs| == Size(clusterRoles);
    assert forall i :: 0 <= i < |rs| ==> (rs + crs)[i] == rs[i];
    assert forall i :: 0 <= i < |crs| ==> (rs + crs)[|rs| + i] == crs[i];
  }

  /** The number of objects a listing returned; a failed listing returned none. */
  function Size<T>(listing: Listing<T>): nat {
    match listing
    case Listed(items) => |items|
    case ListFailed => 0
  }

  function KindOf(x: RbacRecord): RoleKind { x.kind }

  /** All namespaced roles come before all cluster roles; roles keep their own
      namespace and cluster roles get "cluster". */
  lemma RbacOrder(roles: Listing<RoleObject>, clusterRoles: Listing<RoleObject>, printer: Printer)
    ensures var r := DiscoverRbac(roles, clusterRoles, printer);
      && (forall i, j :: 0 <= i < j < |r| && r[i].kind == ClusterRole ==> r[j].kind == ClusterRole)
      && (forall i :: 0 <= i < |r| && r[i].kind == ClusterRole ==> r[i].namespace == Some("cluster"))
      && (roles.Listed? ==> forall i :: 0 <= i < |roles.items| ==>
            r[i].kind == Role && r[i].namespace == roles.items[i].metadata.namespace)
  {
  }

  /** One Role record per listed role and one ClusterRole record per listed
      cluster role. */
  lemma RbacCounts(roles: Listing<RoleObject>, clusterRoles: Listing<RoleObject>, printer: Printer)
    ensures Count(KindOf, Role, DiscoverRbac(roles, clusterRoles, printer)) == Size(roles)
    ensures Count(KindOf, ClusterRole, DiscoverRbac(roles, clusterRoles, printer)) == Size(clusterRoles)
  {
    var rs := Discover(roles, (o: RoleObject) => RoleRecordOf(o, printer));
    var crs := Discover(clusterRoles, (o: RoleObject) => ClusterRoleRecordOf(o, printer));
    assert forall x :: x in rs ==> KindOf(x) == Role;
    assert forall x :: x in crs ==> KindOf(x) == ClusterRole;
    assert Count(KindOf, Role, rs) == |rs| == Size(roles);
    assert Count(KindOf, ClusterRole, crs) == |crs| == Size(clusterRoles);
    CountConcat(KindOf, Role, rs, crs);
    CountConcat(KindOf, ClusterRole, rs, crs);
  }

  /** The categories whose listing can fail on its own. */
  datatype Category = Namespaces | Nodes | Pods | Services | Deployments | ConfigMaps | Secrets | Roles | ClusterRoles

  /** The cluster with one listing replaced by a failure. */
  function FailListing(c: Cluster, cat: Category): Cluster {
    match cat
    case Namespaces => c.(namespaces := ListFailed)
    case Nodes => c.(nodes := ListFailed)
    case Pods => c.(pods := ListFailed)
    case Services => c.(services := ListFailed)
    case Deployments => c.(deployments := ListFailed)
    case ConfigMaps => c.(configmaps := ListFailed)
    case Secrets => c.(secrets := ListFailed)
    case Roles => c.(roles := ListFailed)
    case ClusterRoles => c.(clusterRoles := ListFailed)
  }

  /** A failed listing degrades only its own category to the empty list; a
      failed Role listing still leaves the cluster roles, and the other way round. */
  lemma FailureIsLocal(c: Cluster, printer: Printer, cat: Category)
    ensures var a := DiscoverAll(c, printer);
      var b := DiscoverAll(FailListing(c, cat), printer);
      match cat
      case Namespaces => b == a.(namespaces := [])
      case Nodes => b == a.(nodes := [])
      case Pods => b == a.(pods := [])
      case Services => b == a.(services := [])
      case Deployments => b == a.(deployments := [])
      case ConfigMaps => b == a.(configmaps := [])
      case Secrets => b == a.(secrets := [])
      case Roles => b == a.(rbac := Filter(IsClusterRole, a.rbac))
      case ClusterRoles => b == a.(rbac := Filter(IsRole, a.rbac))
  {
    if cat == Roles {
      RolesFailureKeepsClusterRoles(c.roles, c.clusterRoles, printer);
    } else if cat == ClusterRoles {
      ClusterRolesFailureKeepsRoles(c.roles, c.clusterRoles, printer);
    }
  }

  predicate IsRole(x: RbacRecord) { x.kind == Role }

  predicate IsClusterRole(x: RbacRecord) { x.kind == ClusterRole }

  /** Without the role listing, the RBAC list is the cluster roles alone. */
  lemma RolesFailureKeepsClusterRoles(roles: Listing<RoleObject>, clusterRoles: Listing<RoleObject>, printer: Printer)
    ensures DiscoverRbac(ListFailed, clusterRoles, printer) ==
      Filter(IsClusterRole, DiscoverRbac(roles, clusterRoles, printer))
  {
    var rs := Discover(roles, (o: RoleObject) => RoleRecordOf(o, printer));
    var crs := Discover(clusterRoles, (o: RoleObject) => ClusterRoleRecordOf(o, printer));
    FilterConcat(IsClusterRole, rs, crs);
    FilterNoneKept(IsClusterRole, rs);
    FilterAllKept(IsClusterRole, crs);
  }

  /** Without the cluster-role listing, the RBAC list is the roles alone. */
  lemma ClusterRolesFailureKeepsRoles(roles: Listing<RoleObject>, clusterRoles: Listing<RoleObject>, printer: Printer)
    ensures DiscoverRbac(roles, ListFailed, printer) ==
      Filter(IsRole, DiscoverRbac(roles, clusterRoles, printer))
  {
    var rs := Discover(roles, (o: RoleObject) => RoleRecordOf(o, printer));
    var crs := Discover(clusterRoles, (o: RoleObject) => ClusterRoleRecordOf(o, printer));
    FilterConcat(IsRole, rs, crs);
    FilterAllKept(IsRole, rs);
    FilterNoneKept(IsRole, crs);
  }

  /** Discovered pod and service records have exactly the keys the source
      writes: in particular no pod has `labels` and no service has `selector`. */
  lemma DiscoveredKeys(c: Cluster, printer: Printer)
    ensures var a := DiscoverAll(c, printer);
      && (forall p :: p in a.pods ==>
            PodDict(p).Keys == {"id", "name", "namespace", "status", "node", "creation_time", "containers"})
      && (forall s :: s in a.services ==>
            ServiceDict(s).Keys == {"id", "name", "namespace", "type", "cluster_ip", "creation_time"})
  {
  }

  /** With no labels on pods and no selector on services, every discovered
      service exposes every discovered pod of its own namespace. */
  lemma DiscoveredServicesExposeWholeNamespace(c: Cluster, printer: Printer, e: Edge)
    ensures var a := DiscoverAll(c, printer);
      e in ExposesEdges(a.services, a.pods) <==>
        exists s, p :: s in a.services && p in a.pods && p.namespace == s.namespace
          && e == Edge(Service, s.id, Pod, p.id)
  {
    var a := DiscoverAll(c, printer);
    assert forall p :: p in a.pods ==> p.labels == None;
    assert forall s :: s in a.services ==> s.selector == None;
  }
}

=== FILE: projection.dfy ===
/** Graph projection (backend/tigergraph_manager.py `insert_vertices`,
    `insert_edges` and `import_k8s_assets`): asset records become vertex
    upserts keyed by their `id`, edges become edge upserts, and containers are
    pulled out of the pods as a vertex collection of their own. The store
    calls themselves are not modelled: the result is the sequence of upserts
    the loader issues, in order. */
module Projection {

  import opened Seqs
  import opened Assets
  import opened Relationships

  /** One `upsertVertexData` call. */
  datatype VertexLoad = VertexLoad(vertexType: string, id: Value, attributes: Dict)

  /** One `upsertEdgeData` call. */
  datatype EdgeLoad = EdgeLoad(
    edgeType: string,
    sourceType: string,
    sourceId: string,
    targetType: string,
    targetId: string,
    attributes: Dict)

  datatype VertexBatch = VertexBatch(vertexType: string, loads: seq<VertexLoad>)

  datatype EdgeBatch = EdgeBatch(edgeType: string, loads: seq<EdgeLoad>)

  /** The vertex for one record: its `id` is the vertex id, everything else
      is an attribute. */
  function ProjectVertex(vertexType: string, d: Dict): (v: VertexLoad)
    requires "id" in d
    ensures v.vertexType == vertexType && v.id == d["id"]
    ensures forall k :: k in v.attributes <==> k in d && k != "id"
    ensures forall k :: k in v.attributes ==> v.attributes[k] == d[k]
  {
    VertexLoad(vertexType, d["id"], map k | k in d && k != "id" :: d[k])
  }

  /** The upserts `insert_vertices` issues: one per record, in order, until a
      record without an `id` key ends the loop. */
  function ProjectVertices(vertexType: string, ds: seq<Dict>): (r: seq<VertexLoad>)
    ensures |r| <= |ds|
    ensures forall i :: 0 <= i < |r| ==> "id" in ds[i] && r[i] == ProjectVertex(vertexType, ds[i])
    ensures |r| < |ds| ==> "id" !in ds[|r|]
  {
    if |ds| == 0 || "id" !in ds[0] then []
    else [ProjectVertex(vertexType, ds[0])] + ProjectVertices(vertexType, ds[1..])
  }

  /** Every record carries an `id` key. */
  predicate AllKeyed(ds: seq<Dict>) {
    forall i :: 0 <= i < |ds| ==> "id" in ds[i]
  }

  /** When every record has an `id`, every record is loaded. */
  lemma ProjectVerticesComplete(vertexType: string, ds: seq<Dict>)
    requires AllKeyed(ds)
    ensures |ProjectVertices(vertexType, ds)| == |ds|
  {
  }

  /** The upsert for one edge of a batch: the endpoints are read from the
      edge dictionary, and since it has no `attributes` key the attributes
      default to empty. */
  function ProjectEdge(edgeType: string, e: Edge): (l: EdgeLoad)
    ensures var d := EdgeDict(e);
      && l.edgeType == edgeType
      && l.sourceType == d["from_type"] && l.sourceId == d["from_id"]
      && l.targetType == d["to_type"] && l.targetId == d["to_id"]
      && "attributes" !in d && l.attributes == map[]
  {
    EdgeLoad(edgeType, e.fromType.Name(), e.fromId, e.toType.Name(), e.toId, map[])
  }

  function ProjectEdges(edgeType: string, es: seq<Edge>): seq<EdgeLoad> {
    Map((e: Edge) => ProjectEdge(edgeType, e), es)
  }

  /** `insert_edges` issues one upsert per edge, in order, under the batch's
      edge type, copying the endpoint types and ids and with no attributes. */
  lemma EdgeLoadsCopyEdges(edgeType: string, es: seq<Edge>)
    ensures var ls := ProjectEdges(edgeType, es);
      && |ls| == |es|
      && forall i :: 0 <= i < |ls| ==>
        && ls[i].edgeType == edgeType
        && ls[i].sourceType == es[i].fromType.Name() && ls[i].sourceId == es[i].fromId
        && ls[i].targetType == es[i].toType.Name() && ls[i].targetId == es[i].toId
        && ls[i].attributes == map[]
  {
  }

  /** The container records of all pods, pod after pod. */
  function ContainerVertices(pods: seq<PodRecord>): seq<ContainerRecord> {
    FlatMap((p: PodRecord) => p.containers, pods)
  }

  /** The container collection built in `import_k8s_assets`: each pod's
      containers appended in order. */
  method CollectContainers(pods: seq<PodRecord>) returns (containers: seq<ContainerRecord>)
    ensures containers == ContainerVertices(pods)
    ensures |containers| == TotalContainers(pods)
  {
    containers := [];
    var i := 0;
    while i < |pods|
      invariant 0 <= i <= |pods|
      invariant containers == ContainerVertices(pods[..i])
      invariant |containers| == TotalContainers(pods[..i])
    {
      var cs := pods[i].containers;
      var j := 0;
      while j < |cs|
        invariant 0 <= j <= |cs|
        invariant containers == ContainerVertices(pods[..i]) + cs[..j]
        invariant |containers| == TotalContainers(pods[..i]) + j
      {
        containers := containers + [cs[j]];
        assert cs[..j + 1] == cs[..j] + [cs[j]];
        j := j + 1;
      }
      assert cs[..j] == cs;
      assert pods[..i + 1] == pods[..i] + [pods[i]];
      ContainersSnoc(pods[..i], pods[i]);
      i := i + 1;
    }
    assert pods[..i] == pods;
  }

  lemma ContainersSnoc(pods: seq<PodRecord>, p: PodRecord)
    ensures ContainerVertices(pods + [p]) == ContainerVertices(pods) + p.containers
    ensures TotalContainers(pods + [p]) == TotalContainers(pods) + |p.containers|
  {
    var f := (q: PodRecord) => q.containers;
    FlatMapConcat(f, pods, [p]);
    assert FlatMap(f, [p]) == p.containers by {
      assert [p][1..] == [];
    }
    TotalContainersConcat(pods, [p]);
  }

  lemma {:induction false} TotalContainersConcat(a: seq<PodRecord>, b: seq<PodRecord>)
    ensures TotalContainers(a + b) == TotalContainers(a) + TotalContainers(b)
  {
    if |a| == 0 {
      assert a + b == b;
    } else {
      assert (a + b)[1..] == a[1..] + b;
      TotalContainersConcat(a[1..], b);
    }
  }

  /** The vertex and edge upserts of one import, in the order they are issued. */
  datatype ImportPlan = ImportPlan(vertexBatches: seq<VertexBatch>, edgeBatches: seq<EdgeBatch>)

  function VertexBatchOf(vertexType: string, ds: seq<Dict>): VertexBatch {
    VertexBatch(vertexType, ProjectVertices(vertexType, ds))
  }

  function EdgeBatchOf(rel: Relation, edges: seq<Edge>): EdgeBatch {
    EdgeBatch(rel.Name(), ProjectEdges(rel.Name(), Batch(rel, edges)))
  }

  /** `import_k8s_assets`: the eight record collections, then the
      containers, then the seven edge batches. */
  function Import(a: Snapshot): ImportPlan {
    var edges := CreateRelationships(a);
    ImportPlan(VertexBatches(a), Map((rel: Relation) => EdgeBatchOf(rel, edges), Relations))
  }

  /** The record collections `import_k8s_assets` loads, in order, each with
      its vertex type. */
  function VertexInputs(a: Snapshot): seq<(string, seq<Dict>)> {
    [ ("Namespace", Map(NamespaceDict, a.namespaces)),
      ("K8sNode", Map(NodeDict, a.nodes)),
      ("Pod", Map(PodDict, a.pods)),
      ("Service", Map(ServiceDict, a.services)),
      ("Deployment", Map(DeploymentDict, a.deployments)),
      ("ConfigMap", Map(ConfigMapDict, a.configmaps)),
      ("Secret", Map(SecretDict, a.secrets)),
      ("RBAC", Map(RbacDict, a.rbac)),
      ("Container", Map(ContainerDict, ContainerVertices(a.pods))) ]
  }

  function VertexBatches(a: Snapshot): seq<VertexBatch> {
    Map((input: (string, seq<Dict>)) => VertexBatchOf(input.0, input.1), VertexInputs(a))
  }

  /** The dictionaries of every record collection carry an `id`. */
  lemma InputsKeyed(a: Snapshot)
    ensures forall k :: 0 <= k < |VertexInputs(a)| ==> AllKeyed(VertexInputs(a)[k].1)
  {
    var vi := VertexInputs(a);
    assert AllKeyed(vi[0].1);
    assert AllKeyed(vi[1].1);
    assert AllKeyed(vi[2].1);
    assert AllKeyed(vi[3].1);
    assert AllKeyed(vi[4].1);
    assert AllKeyed(vi[5].1);
    assert AllKeyed(vi[6].1);
    assert AllKeyed(vi[7].1);
    assert AllKeyed(vi[8].1);
  }

  /** No record is dropped: each of the nine collections, from the
      namespaces to the containers, becomes one vertex per record, in order,
      keyed by the record's id and carrying its other fields. */
  lemma ImportLoadsEveryRecord(a: Snapshot)
    ensures |VertexBatches(a)| == |VertexInputs(a)| == 9
    ensures forall k :: 0 <= k < 9 ==>
      var input := VertexInputs(a)[k];
      var batch := VertexBatches(a)[k];
      && batch.vertexType == input.0
      && |batch.loads| == |input.1|
      && forall i :: 0 <= i < |input.1| ==> batch.loads[i] == ProjectVertex(input.0, input.1[i])
  {
    var vi := VertexInputs(a);
    InputsKeyed(a);
    forall k | 0 <= k < 9
      ensures |VertexBatches(a)[k].loads| == |vi[k].1|
    {
      ProjectVerticesComplete(vi[k].0, vi[k].1);
    }
  }

  /** The container collection is loaded last, one vertex per container of
      every pod, keyed by the container id. */
  lemma ImportLoadsEveryContainer(a: Snapshot)
    ensures var cs := ContainerVertices(a.pods);
      var batch := VertexBatches(a)[8];
      && batch.vertexType == "Container"
      && |batch.loads| == |cs| == TotalContainers(a.pods)
      && forall i :: 0 <= i < |cs| ==> batch.loads[i].id == Str(cs[i].id)
  {
    ImportLoadsEveryRecord(a);
    ContainerCount(a.pods);
  }

  lemma {:induction false} ContainerCount(pods: seq<PodRecord>)
    ensures |ContainerVertices(pods)| == TotalContainers(pods)
  {
    if |pods| > 0 {
      ContainerCount(pods[1..]);
    }
  }

  /** The edge batches are loaded in the order runs_on, exposes, manages,
      contains, uses_config, uses_secret, has_container; the runs_on batch is
      empty and each other batch loads exactly its group. */
  lemma ImportEdgeBatches(a: Snapshot)
    ensures var eb := Import(a).edgeBatches;
      && |eb| == 7
      && (forall i :: 0 <= i < 7 ==> eb[i].edgeType == Relations[i].Name())
      && eb[0].loads == []
      && (forall i :: 1 <= i < 7 ==> eb[i].loads == ProjectEdges(Relations[i].Name(), Group(Relations[i], a)))
  {
    var edges := CreateRelationships(a);
    RunsOnBatchEmpty(edges);
    forall i | 1 <= i < 7
      ensures Batch(Relations[i], edges) == Group(Relations[i], a)
    {
      BatchIsGroup(a, Relations[i]);
    }
  }

  /** A record of a collection whose dictionaries are keyed by the record id
      is loaded as a vertex with that id. */
  lemma RecordLoaded<R>(vertexType: string, toDict: R -> Dict, idOf: R -> string, rs: seq<R>, r: R)
    requires forall x :: KeyedBy(toDict(x), idOf(x))
    requires r in rs
    ensures var loads := ProjectVertices(vertexType, Map(toDict, rs));
      exists j :: 0 <= j < |loads| && loads[j].id == Str(idOf(r))
  {
    var ds := Map(toDict, rs);
    assert AllKeyed(ds);
    ProjectVerticesComplete(vertexType, ds);
    var j :| 0 <= j < |rs| && rs[j] == r;
    assert ds[j] == toDict(r);
  }

  lemma PodBatch(a: Snapshot)
    ensures VertexBatches(a)[2] == VertexBatchOf("Pod", Map(PodDict, a.pods))
  {
    assert VertexInputs(a)[2] == ("Pod", Map(PodDict, a.pods));
  }

  /** Every pod of the snapshot is a loaded Pod vertex. */
  lemma PodVertexLoaded(a: Snapshot, p: PodRecord)
    requires p in a.pods
    ensures exists j :: 0 <= j < |VertexBatches(a)[2].loads| && VertexBatches(a)[2].loads[j].id == Str(p.id)
  {
    PodBatch(a);
    RecordLoaded("Pod", PodDict, PodId, a.pods, p);
  }

  /** Every container of every pod is a loaded Container vertex. */
  lemma ContainerVertexLoaded(a: Snapshot, p: PodRecord, c: ContainerRecord)
    requires p in a.pods && c in p.containers
    ensures exists i :: 0 <= i < |VertexBatches(a)[8].loads| && VertexBatches(a)[8].loads[i].id == Str(c.id)
  {
    ImportLoadsEveryContainer(a);
    var cs := ContainerVertices(a.pods);
    assert c in cs;
    var i :| 0 <= i < |cs| && cs[i] == c;
    assert VertexBatches(a)[8].loads[i].id == Str(c.id);
  }

  /** Each has_container upsert comes from a container of a pod. */
  lemma HasContainerLoadOrigin(pods: seq<PodRecord>, l: EdgeLoad)
    requires l in ProjectEdges("has_container", HasContainerEdges(pods))
    ensures exists p, c ::
              p in pods && c in p.containers
              && l == EdgeLoad("has_container", "Pod", p.id, "Container", c.id, map[])
  {
    var es := HasContainerEdges(pods);
    var k :| 0 <= k < |es| && l == ProjectEdge("has_container", es[k]);
    assert es[k] in es;
  }

  /** Every has_container edge joins two vertices the same import loads: its
      source is the id of a loaded Pod vertex and its target the id of a loaded
      Container vertex. By `ImportEdgeBatches` these edges are exactly the
      has_container batch. */
  lemma HasContainerEndpointsLoaded(a: Snapshot, l: EdgeLoad)
    requires l in ProjectEdges("has_container", HasContainerEdges(a.pods))
    ensures l.sourceType == "Pod" && l.targetType == "Container"
    ensures exists i :: 0 <= i < |VertexBatches(a)[2].loads| && VertexBatches(a)[2].loads[i].id == Str(l.sourceId)
    ensures exists i :: 0 <= i < |VertexBatches(a)[8].loads| && VertexBatches(a)[8].loads[i].id == Str(l.targetId)
  {
    HasContainerLoadOrigin(a.pods, l);
    var p, c :| p in a.pods && c in p.containers
      && l == EdgeLoad("has_container", "Pod", p.id, "Container", c.id, map[]);
    PodVertexLoaded(a, p);
    ContainerVertexLoaded(a, p, c);
  }
}

=== FILE: relationships.dfy ===
/** Relationship inference: the typed, directed edges derived from one asset
    snapshot (`TigerGraphManager._create_relationships` and its four matchers
    in backend/tigergraph_manager.py), and the split of the edge list into the
    seven per-relation batches handed to the loader. */
module Relationships {

  import opened Wrappers
  import opened Seqs
  import Text
  import opened Assets

  /** The vertex types of the graph. */
  datatype VertexType = K8sNode | Pod | Service | Deployment | ConfigMap | Secret | Namespace | Rbac | Container {
    function Name(): string {
      match this
      case K8sNode => "K8sNode"
      case Pod => "Pod"
      case Service => "Service"
      case Deployment => "Deployment"
      case ConfigMap => "ConfigMap"
      case Secret => "Secret"
      case Namespace => "Namespace"
      case Rbac => "RBAC"
      case Container => "Container"
    }
  }

  /** An edge record: its dictionary has exactly the keys `from_type`,
      `from_id`, `to_type` and `to_id` (see `EdgeDict`). */
  datatype Edge = Edge(fromType: VertexType, fromId: string, toType: VertexType, toId: string)

  function EdgeDict(e: Edge): map<string, string> {
    map["from_type" := e.fromType.Name(), "from_id" := e.fromId,
        "to_type" := e.toType.Name(), "to_id" := e.toId]
  }

  function FromId(e: Edge): string { e.fromId }
  function ToId(e: Edge): string { e.toId }
  function PodId(p: PodRecord): string { p.id }
  function ConfigMapNamespace(c: ConfigMapRecord): Option<string> { c.namespace }
  function SecretNamespace(s: SecretRecord): Option<string> { s.namespace }

  /** The seven relations, each with the vertex types it connects. */
  datatype Relation = RunsOn | Exposes | Manages | Contains | UsesConfig | UsesSecret | HasContainer {
    function Name(): string {
      match this
      case RunsOn => "runs_on"
      case Exposes => "exposes"
      case Manages => "manages"
      case Contains => "contains"
      case UsesConfig => "uses_config"
      case UsesSecret => "uses_secret"
      case HasContainer => "has_container"
    }

    function Source(): VertexType {
      match this
      case RunsOn => Pod
      case Exposes => Service
      case Manages => Deployment
      case Contains => Namespace
      case UsesConfig => Pod
      case UsesSecret => Pod
      case HasContainer => Pod
    }

    function Target(): VertexType {
      match this
      case RunsOn => K8sNode
      case Exposes => Pod
      case Manages => Pod
      case Contains => Pod
      case UsesConfig => ConfigMap
      case UsesSecret => Secret
      case HasContainer => Container
    }

    /** Position of the relation's group in the edge list. */
    function Index(): nat {
      match this
      case RunsOn => 0
      case Exposes => 1
      case Manages => 2
      case Contains => 3
      case UsesConfig => 4
      case UsesSecret => 5
      case HasContainer => 6
    }
  }

  /** The order in which the edge groups are built. */
  const Relations: seq<Relation> := [RunsOn, Exposes, Manages, Contains, UsesConfig, UsesSecret, HasContainer]

  predicate HasSignature(e: Edge, rel: Relation) {
    e.fromType == rel.Source() && e.toType == rel.Target()
  }

  // ---------------------------------------------------------------------------
  // The four matchers

  /** Python's `labels.get(k)`. */
  function Lookup(labels: Labels, k: string): Option<string> {
    if k in labels then Some(labels[k]) else None
  }

  /** `all(labels.get(k) == v for k, v in selector.items())`. */
  predicate SelectorMatches(selector: Labels, labels: Labels) {
    forall k :: k in selector ==> Lookup(labels, k) == Some(selector[k])
  }

  /** The selector test is containment of key/value pairs. */
  lemma SelectorMatchesIsSubmap(selector: Labels, labels: Labels)
    ensures SelectorMatches(selector, labels) <==> selector.Items <= labels.Items
  {
    if SelectorMatches(selector, labels) {
      forall kv | kv in selector.Items ensures kv in labels.Items {
        assert kv.0 in selector;
      }
    } else {
      var k :| k in selector && Lookup(labels, k) != Some(selector[k]);
      assert (k, selector[k]) in selector.Items;
    }
  }

  /** A missing `selector` key or missing `labels` key reads as the empty mapping. */
  predicate ServiceSelects(svc: ServiceRecord, pod: PodRecord) {
    pod.namespace == svc.namespace
    && SelectorMatches(svc.selector.GetOr(map[]), pod.labels.GetOr(map[]))
  }

  /** `_get_pods_for_service`: the pods in the service's namespace whose labels
      include every selector pair, in input order. */
  function PodsForService(svc: ServiceRecord, pods: seq<PodRecord>): (r: seq<PodRecord>)
    ensures |r| <= |pods|
    ensures forall p :: p in r <==>
      p in pods && p.namespace == svc.namespace
      && svc.selector.GetOr(map[]).Items <= p.labels.GetOr(map[]).Items
  {
    SelectorIsSubmapEverywhere();
    Filter((p: PodRecord) => ServiceSelects(svc, p), pods)
  }

  lemma SelectorIsSubmapEverywhere()
    ensures forall selector: Labels, labels: Labels ::
      SelectorMatches(selector, labels) <==> selector.Items <= labels.Items
  {
    forall selector: Labels, labels: Labels
      ensures SelectorMatches(selector, labels) <==> selector.Items <= labels.Items
    {
      SelectorMatchesIsSubmap(selector, labels);
    }
  }

  predicate DeploymentSelects(d: DeploymentRecord, pod: PodRecord) {
    pod.namespace == d.namespace && Text.Contains(pod.name, d.name)
  }

  /** `_get_pods_for_deployment`: the pods in the deployment's namespace whose
      name contains the deployment name, in input order. */
  function PodsForDeployment(d: DeploymentRecord, pods: seq<PodRecord>): (r: seq<PodRecord>)
    ensures |r| <= |pods|
    ensures forall p :: p in r <==>
      p in pods && p.namespace == d.namespace
      && Text.Contains(p.name, d.name)
  {
    Filter((p: PodRecord) => DeploymentSelects(d, p), pods)
  }

  /** `_get_configmaps_for_pod`: the configmaps whose namespace equals the
      pod's, in input order. */
  function ConfigMapsForPod(pod: PodRecord, cms: seq<ConfigMapRecord>): (r: seq<ConfigMapRecord>)
    ensures forall c :: c in r <==> c in cms && c.namespace == pod.namespace
    ensures |r| == Count(ConfigMapNamespace, pod.namespace, cms)
  {
    var keep := (c: ConfigMapRecord) => c.namespace == pod.namespace;
    FilterCount(keep, ConfigMapNamespace, pod.namespace, cms);
    Filter(keep, cms)
  }

  /** `_get_secrets_for_pod`: the secrets whose namespace equals the pod's,
      in input order. */
  function SecretsForPod(pod: PodRecord, secrets: seq<SecretRecord>): (r: seq<SecretRecord>)
    ensures forall s :: s in r <==> s in secrets && s.namespace == pod.namespace
    ensures |r| == Count(SecretNamespace, pod.namespace, secrets)
  {
    var keep := (s: SecretRecord) => s.namespace == pod.namespace;
    FilterCount(keep, SecretNamespace, pod.namespace, secrets);
    Filter(keep, secrets)
  }

  /** A configmap listed `n` times in the pod's namespace is matched `n` times;
      one in another namespace is not matched. */
  lemma ConfigMapsForPodMultiset(pod: PodRecord, cms: seq<ConfigMapRecord>, c: ConfigMapRecord)
    ensures multiset(ConfigMapsForPod(pod, cms))[c] ==
      if c.namespace == pod.namespace then multiset(cms)[c] else 0
  {
    FilterMultiset((x: ConfigMapRecord) => x.namespace == pod.namespace, cms, c);
  }

  /** A secret listed `n` times in the pod's namespace is matched `n` times;
      one in another namespace is not matched. */
  lemma SecretsForPodMultiset(pod: PodRecord, secrets: seq<SecretRecord>, s: SecretRecord)
    ensures multiset(SecretsForPod(pod, secrets))[s] ==
      if s.namespace == pod.namespace then multiset(secrets)[s] else 0
  {
    FilterMultiset((x: SecretRecord) => x.namespace == pod.namespace, secrets, s);
  }

  // ---------------------------------------------------------------------------
  // The edges each asset contributes to its group

  function RunsOnFrom(p: PodRecord): seq<Edge> {
    if Truthy(p.node) then [Edge(Pod, p.id, K8sNode, p.node.value)] else []
  }

  function ExposesFrom(svc: ServiceRecord, pods: seq<PodRecord>): seq<Edge> {
    Map((p: PodRecord) => Edge(Service, svc.id, Pod, p.id), PodsForService(svc, pods))
  }

  function ManagesFrom(d: DeploymentRecord, pods: seq<PodRecord>): seq<Edge> {
    Map((p: PodRecord) => Edge(Deployment, d.id, Pod, p.id), PodsForDeployment(d, pods))
  }

  function ContainsFrom(p: PodRecord): seq<Edge> {
    if Truthy(p.namespace) then [Edge(Namespace, p.namespace.value, Pod, p.id)] else []
  }

  function UsesConfigFrom(p: PodRecord, cms: seq<ConfigMapRecord>): seq<Edge> {
    if Truthy(p.namespace)
    then Map((c: ConfigMapRecord) => Edge(Pod, p.id, ConfigMap, c.id), ConfigMapsForPod(p, cms))
    else []
  }

  function UsesSecretFrom(p: PodRecord, secrets: seq<SecretRecord>): seq<Edge> {
    if Truthy(p.namespace)
    then Map((s: SecretRecord) => Edge(Pod, p.id, Secret, s.id), SecretsForPod(p, secrets))
    else []
  }

  function HasContainerFrom(p: PodRecord): seq<Edge> {
    Map((c: ContainerRecord) => Edge(Pod, p.id, Container, c.id), p.containers)
  }

  // ---------------------------------------------------------------------------
  // The seven groups

  /** Pod -> K8sNode for every pod with a present, non-empty node. */
  function RunsOnEdges(pods: seq<PodRecord>): (r: seq<Edge>)
    ensures forall e :: e in r <==>
      exists p :: p in pods && Truthy(p.node) && e == Edge(Pod, p.id, K8sNode, p.node.value)
  {
    FlatMap(RunsOnFrom, pods)
  }

  /** Service -> Pod for every same-namespace pod whose labels include the selector. */
  function ExposesEdges(services: seq<ServiceRecord>, pods: seq<PodRecord>): (r: seq<Edge>)
    ensures forall e :: e in r <==>
      exists s, p :: s in services && p in pods && p.namespace == s.namespace
        && s.selector.GetOr(map[]).Items <= p.labels.GetOr(map[]).Items
        && e == Edge(Service, s.id, Pod, p.id)
  {
    FlatMap((s: ServiceRecord) => ExposesFrom(s, pods), services)
  }

  /** Deployment -> Pod for every same-namespace pod whose name contains the deployment's. */
  function ManagesEdges(deployments: seq<DeploymentRecord>, pods: seq<PodRecord>): (r: seq<Edge>)
    ensures forall e :: e in r <==>
      exists d, p :: d in deployments && p in pods && p.namespace == d.namespace
        && Text.Contains(p.name, d.name) && e == Edge(Deployment, d.id, Pod, p.id)
  {
    FlatMap((d: DeploymentRecord) => ManagesFrom(d, pods), deployments)
  }

  /** Namespace -> Pod for every pod with a present, non-empty namespace. */
  function ContainsEdges(pods: seq<PodRecord>): (r: seq<Edge>)
    ensures forall e :: e in r <==>
      exists p :: p in pods && Truthy(p.namespace) && e == Edge(Namespace, p.namespace.value, Pod, p.id)
  {
    FlatMap(ContainsFrom, pods)
  }

  /** Pod -> ConfigMap for every pod with a non-empty namespace and every
      configmap in that namespace. */
  function UsesConfigEdges(pods: seq<PodRecord>, cms: seq<ConfigMapRecord>): (r: seq<Edge>)
    ensures forall e :: e in r <==>
      exists p, c :: p in pods && c in cms && Truthy(p.namespace) && c.namespace == p.namespace
        && e == Edge(Pod, p.id, ConfigMap, c.id)
  {
    FlatMap((p: PodRecord) => UsesConfigFrom(p, cms), pods)
  }

  /** Pod -> Secret for every pod with a non-empty namespace and every secret
      in that namespace. */
  function UsesSecretEdges(pods: seq<PodRecord>, secrets: seq<SecretRecord>): (r: seq<Edge>)
    ensures forall e :: e in r <==>
      exists p, s :: p in pods && s in secrets && Truthy(p.namespace) && s.namespace == p.namespace
        && e == Edge(Pod, p.id, Secret, s.id)
  {
    FlatMap((p: PodRecord) => UsesSecretFrom(p, secrets), pods)
  }

  /** Pod -> Container for every container of every pod. */
  function HasContainerEdges(pods: seq<PodRecord>): (r: seq<Edge>)
    ensures forall e :: e in r <==>
      exists p, c :: p in pods && c in p.containers && e == Edge(Pod, p.id, Container, c.id)
  {
    FlatMap(HasContainerFrom, pods)
  }

  // ---------------------------------------------------------------------------
  // Order: each matcher and each group follows its input lists. Splitting the
  // outer list splits the result at the same place, and one element yields
  // exactly its own matches, so together these fix the whole sequence.

  /** The selected pods of `a + b` are those of `a`, then those of `b`. */
  lemma PodsForServiceOrder(svc: ServiceRecord, a: seq<PodRecord>, b: seq<PodRecord>, p: PodRecord)
    ensures PodsForService(svc, a + b) == PodsForService(svc, a) + PodsForService(svc, b)
    ensures PodsForService(svc, [p]) == if ServiceSelects(svc, p) then [p] else []
  {
    FilterConcat((q: PodRecord) => ServiceSelects(svc, q), a, b);
    FilterOne((q: PodRecord) => ServiceSelects(svc, q), p);
  }

  /** The selected pods of `a + b` are those of `a`, then those of `b`. */
  lemma PodsForDeploymentOrder(d: DeploymentRecord, a: seq<PodRecord>, b: seq<PodRecord>, p: PodRecord)
    ensures PodsForDeployment(d, a + b) == PodsForDeployment(d, a) + PodsForDeployment(d, b)
    ensures PodsForDeployment(d, [p]) == if DeploymentSelects(d, p) then [p] else []
  {
    FilterConcat((q: PodRecord) => DeploymentSelects(d, q), a, b);
    FilterOne((q: PodRecord) => DeploymentSelects(d, q), p);
  }

  /** The matched configmaps of `a + b` are those of `a`, then those of `b`. */
  lemma ConfigMapsForPodOrder(pod: PodRecord, a: seq<ConfigMapRecord>, b: seq<ConfigMapRecord>, c: ConfigMapRecord)
    ensures ConfigMapsForPod(pod, a + b) == ConfigMapsForPod(pod, a) + ConfigMapsForPod(pod, b)
    ensures ConfigMapsForPod(pod, [c]) == if c.namespace == pod.namespace then [c] else []
  {
    FilterConcat((x: ConfigMapRecord) => x.namespace == pod.namespace, a, b);
    FilterOne((x: ConfigMapRecord) => x.namespace == pod.namespace, c);
  }

  /** The matched secrets of `a + b` are those of `a`, then those of `b`. */
  lemma SecretsForPodOrder(pod: PodRecord, a: seq<SecretRecord>, b: seq<SecretRecord>, s: SecretRecord)
    ensures SecretsForPod(pod, a + b) == SecretsForPod(pod, a) + SecretsForPod(pod, b)
    ensures SecretsForPod(pod, [s]) == if s.namespace == pod.namespace then [s] else []
  {
    FilterConcat((x: SecretRecord) => x.namespace == pod.namespace, a, b);
    FilterOne((x: SecretRecord) => x.namespace == pod.namespace, s);
  }

  /** runs_on edges follow the pods: one pod yields its single edge when its
      node is truthy. */
  lemma RunsOnEdgesOrder(a: seq<PodRecord>, b: seq<PodRecord>, p: PodRecord)
    ensures RunsOnEdges(a + b) == RunsOnEdges(a) + RunsOnEdges(b)
    ensures RunsOnEdges([p]) == if Truthy(p.node) then [Edge(Pod, p.id, K8sNode, p.node.value)] else []
  {
    FlatMapConcat(RunsOnFrom, a, b);
    FlatMapOne(RunsOnFrom, p);
  }

  /** exposes edges follow the services, and within one service its selected
      pods in pod order. */
  lemma ExposesEdgesOrder(a: seq<ServiceRecord>, b: seq<ServiceRecord>, pods: seq<PodRecord>, svc: ServiceRecord)
    ensures ExposesEdges(a + b, pods) == ExposesEdges(a, pods) + ExposesEdges(b, pods)
    ensures var r := ExposesEdges([svc], pods);
      var ps := PodsForService(svc, pods);
      |r| == |ps| && forall i :: 0 <= i < |r| ==> r[i] == Edge(Service, svc.id, Pod, ps[i].id)
  {
    FlatMapConcat((s: ServiceRecord) => ExposesFrom(s, pods), a, b);
    FlatMapOne((s: ServiceRecord) => ExposesFrom(s, pods), svc);
  }

  /** manages edges follow the deployments, and within one deployment its
      selected pods in pod order. */
  lemma ManagesEdgesOrder(a: seq<DeploymentRecord>, b: seq<DeploymentRecord>, pods: seq<PodRecord>, d: DeploymentRecord)
    ensures ManagesEdges(a + b, pods) == ManagesEdges(a, pods) + ManagesEdges(b, pods)
    ensures var r := ManagesEdges([d], pods);
      var ps := PodsForDeployment(d, pods);
      |r| == |ps| && forall i :: 0 <= i < |r| ==> r[i] == Edge(Deployment, d.id, Pod, ps[i].id)
  {
    FlatMapConcat((x: DeploymentRecord) => ManagesFrom(x, pods), a, b);
    FlatMapOne((x: DeploymentRecord) => ManagesFrom(x, pods), d);
  }

  /** contains edges follow the pods: one pod yields its single edge when its
      namespace is truthy. */
  lemma ContainsEdgesOrder(a: seq<PodRecord>, b: seq<PodRecord>, p: PodRecord)
    ensures ContainsEdges(a + b) == ContainsEdges(a) + ContainsEdges(b)
    ensures ContainsEdges([p]) ==
      if Truthy(p.namespace) then [Edge(Namespace, p.namespace.value, Pod, p.id)] else []
  {
    FlatMapConcat(ContainsFrom, a, b);
    FlatMapOne(ContainsFrom, p);
  }

  /** uses_config edges follow the pods, and within one pod its matched
      configmaps in listing order. */
  lemma UsesConfigEdgesOrder(a: seq<PodRecord>, b: seq<PodRecord>, cms: seq<ConfigMapRecord>, p: PodRecord)
    ensures UsesConfigEdges(a + b, cms) == UsesConfigEdges(a, cms) + UsesConfigEdges(b, cms)
    ensures var r := UsesConfigEdges([p], cms);
      var cs := ConfigMapsForPod(p, cms);
      && (!Truthy(p.namespace) ==> r == [])
      && (Truthy(p.namespace) ==>
            |r| == |cs| && forall i :: 0 <= i < |r| ==> r[i] == Edge(Pod, p.id, ConfigMap, cs[i].id))
  {
    FlatMapConcat((q: PodRecord) => UsesConfigFrom(q, cms), a, b);
    FlatMapOne((q: PodRecord) => UsesConfigFrom(q, cms), p);
  }

  /** uses_secret edges follow the pods, and within one pod its matched
      secrets in listing order. */
  lemma UsesSecretEdgesOrder(a: seq<PodRecord>, b: seq<PodRecord>, secrets: seq<SecretRecord>, p: PodRecord)
    ensures UsesSecretEdges(a + b, secrets) == UsesSecretEdges(a, secrets) + UsesSecretEdges(b, secrets)
    ensures var r := UsesSecretEdges([p], secrets);
      var ss := SecretsForPod(p, secrets);
      && (!Truthy(p.namespace) ==> r == [])
      && (Truthy(p.namespace) ==>
            |r| == |ss| && forall i :: 0 <= i < |r| ==> r[i] == Edge(Pod, p.id, Secret, ss[i].id))
  {
    FlatMapConcat((q: PodRecord) => UsesSecretFrom(q, secrets), a, b);
    FlatMapOne((q: PodRecord) => UsesSecretFrom(q, secrets), p);
  }

  /** has_container edges follow the pods, and within one pod its containers
      in order. */
  lemma HasContainerEdgesOrder(a: seq<PodRecord>, b: seq<PodRecord>, p: PodRecord)
    ensures HasContainerEdges(a + b) == HasContainerEdges(a) + HasContainerEdges(b)
    ensures var r := HasContainerEdges([p]);
      |r| == |p.containers|
      && forall i :: 0 <= i < |r| ==> r[i] == Edge(Pod, p.id, Container, p.containers[i].id)
  {
    FlatMapConcat(HasContainerFrom, a, b);
    FlatMapOne(HasContainerFrom, p);
  }

  function Group(rel: Relation, a: Snapshot): seq<Edge> {
    match rel
    case RunsOn => RunsOnEdges(a.pods)
    case Exposes => ExposesEdges(a.services, a.pods)
    case Manages => ManagesEdges(a.deployments, a.pods)
    case Contains => ContainsEdges(a.pods)
    case UsesConfig => UsesConfigEdges(a.pods, a.configmaps)
    case UsesSecret => UsesSecretEdges(a.pods, a.secrets)
    case HasContainer => HasContainerEdges(a.pods)
  }

  function EdgeGroups(a: Snapshot): seq<seq<Edge>> {
    seq(|Relations|, i requires 0 <= i < |Relations| => Group(Relations[i], a))
  }

  /** `_create_relationships`: all edges of the snapshot, group after group. */
  function CreateRelationships(a: Snapshot): seq<Edge> {
    Flatten(EdgeGroups(a))
  }

  // ---------------------------------------------------------------------------
  // The seven batches handed to the loader

  /** The `runs_on` batch as written: the prefix of the edge list whose length
      is the number of edges whose dictionary has a `runs_on` key. */
  function RunsOnBatch(edges: seq<Edge>): seq<Edge> {
    edges[..|Filter((e: Edge) => "runs_on" in EdgeDict(e), edges)|]
  }

  /** The filter selecting each of the other six batches. The `runs_on` batch
      is a slice, not a filter (see `RunsOnBatch`). */
  predicate InBatch(rel: Relation, e: Edge) {
    match rel
    case RunsOn => false
    case Exposes => e.fromType == Service
    case Manages => e.fromType == Deployment
    case Contains => e.fromType == Namespace
    case UsesConfig => e.toType == ConfigMap
    case UsesSecret => e.toType == Secret
    case HasContainer => e.toType == Container
  }

  function Batch(rel: Relation, edges: seq<Edge>): seq<Edge> {
    if rel == RunsOn then RunsOnBatch(edges)
    else Filter((e: Edge) => InBatch(rel, e), edges)
  }

  // ---------------------------------------------------------------------------
  // Properties

  predicate UniquePodIds(pods: seq<PodRecord>) {
    forall i, j :: 0 <= i < |pods| && 0 <= j < |pods| && pods[i].id == pods[j].id ==> i == j
  }

  function HasNode(p: PodRecord): bool { Truthy(p.node) }
  function PodNamespace(p: PodRecord): Option<string> { p.namespace }

  /** The edge starts at a pod of namespace `ns`. */
  predicate FromPodIn(pods: seq<PodRecord>, ns: string, e: Edge) {
    exists p :: p in pods && p.namespace == Some(ns) && p.id == e.fromId
  }

  /** With unique ids, an edge that starts at pod `a` starts at a pod of `ns`
      exactly when `a` is in `ns`. */
  lemma FromPodInIff(pods: seq<PodRecord>, ns: string, a: PodRecord, e: Edge)
    requires UniquePodIds(pods)
    requires a in pods && e.fromId == a.id
    ensures FromPodIn(pods, ns, e) <==> a.namespace == Some(ns)
  {
    forall p | p in pods && p.id == e.fromId
      ensures p == a
    {
      var i :| 0 <= i < |pods| && pods[i] == p;
      var j :| 0 <= j < |pods| && pods[j] == a;
      assert i == j;
    }
  }
  function HasNamespace(p: PodRecord): bool { Truthy(p.namespace) }

  /** The edge list is the seven groups in source order: runs_on, exposes,
      manages, contains, uses_config, uses_secret, has_container. */
  lemma CreateRelationshipsOrder(a: Snapshot)
    ensures CreateRelationships(a) ==
      Group(RunsOn, a) + Group(Exposes, a) + Group(Manages, a) + Group(Contains, a)
      + Group(UsesConfig, a) + Group(UsesSecret, a) + Group(HasContainer, a)
  {
    var gs := EdgeGroups(a);
    FlattenSevenGroups(gs);
    assert gs[0] == Group(RunsOn, a) && gs[1] == Group(Exposes, a) && gs[2] == Group(Manages, a);
    assert gs[3] == Group(Contains, a) && gs[4] == Group(UsesConfig, a);
    assert gs[5] == Group(UsesSecret, a) && gs[6] == Group(HasContainer, a);
  }

  /** Every edge of a group connects the relation's source and target types. */
  lemma GroupSignature(rel: Relation, a: Snapshot)
    ensures forall e :: e in Group(rel, a) ==> HasSignature(e, rel)
  {
  }

  /** One runs_on edge per pod with a node, none for a pod without. */
  lemma RunsOnOnePerPod(pods: seq<PodRecord>, p: PodRecord)
    requires UniquePodIds(pods)
    requires p in pods
    ensures Count(FromId, p.id, RunsOnEdges(pods)) == if Truthy(p.node) then 1 else 0
  {
    FlatMapKeyedCount(RunsOnFrom, FromId, PodId, pods, p);
  }

  lemma RunsOnLength(pods: seq<PodRecord>)
    ensures |RunsOnEdges(pods)| == Count(HasNode, true, pods)
  {
    FlatMapOneIfKey(RunsOnFrom, HasNode, true, pods);
  }

  /** One contains edge per pod with a namespace, none for a pod without. */
  lemma ContainsOnePerPod(pods: seq<PodRecord>, p: PodRecord)
    requires UniquePodIds(pods)
    requires p in pods
    ensures Count(ToId, p.id, ContainsEdges(pods)) == if Truthy(p.namespace) then 1 else 0
  {
    FlatMapKeyedCount(ContainsFrom, ToId, PodId, pods, p);
  }

  lemma ContainsLength(pods: seq<PodRecord>)
    ensures |ContainsEdges(pods)| == Count(HasNamespace, true, pods)
  {
    FlatMapOneIfKey(ContainsFrom, HasNamespace, true, pods);
  }

  /** A pod with a namespace uses every configmap of that namespace; a pod
      without one uses none. */
  lemma UsesConfigPerPod(pods: seq<PodRecord>, cms: seq<ConfigMapRecord>, p: PodRecord)
    requires UniquePodIds(pods)
    requires p in pods
    ensures Count(FromId, p.id, UsesConfigEdges(pods, cms)) ==
      if Truthy(p.namespace) then Count(ConfigMapNamespace, p.namespace, cms) else 0
  {
    FlatMapKeyedCount((q: PodRecord) => UsesConfigFrom(q, cms), FromId, PodId, pods, p);
  }

  /** Among all uses_config edges, those starting at a pod of namespace `ns`
      number the pods of `ns` times the configmaps of `ns`: none when `ns` has
      no configmap, and none for the empty namespace, which is not truthy. */
  lemma UsesConfigPerNamespace(pods: seq<PodRecord>, cms: seq<ConfigMapRecord>, ns: string)
    requires UniquePodIds(pods)
    ensures Count((e: Edge) => FromPodIn(pods, ns, e), true, UsesConfigEdges(pods, cms)) ==
      if ns == "" then 0 else Count(PodNamespace, Some(ns), pods) * Count(ConfigMapNamespace, Some(ns), cms)
  {
    var f := (q: PodRecord) => UsesConfigFrom(q, cms);
    var keep := (e: Edge) => FromPodIn(pods, ns, e);
    var n := if ns == "" then 0 else Count(ConfigMapNamespace, Some(ns), cms);
    forall a, b | a in pods && b in f(a)
      ensures keep(b) <==> PodNamespace(a) == Some(ns)
    {
      var i :| 0 <= i < |f(a)| && f(a)[i] == b;
      FromPodInIff(pods, ns, a, b);
    }
    FlatMapSelectedCount(f, keep, PodNamespace, Some(ns), pods, n);
  }

  lemma UsesSecretPerPod(pods: seq<PodRecord>, secrets: seq<SecretRecord>, p: PodRecord)
    requires UniquePodIds(pods)
    requires p in pods
    ensures Count(FromId, p.id, UsesSecretEdges(pods, secrets)) ==
      if Truthy(p.namespace) then Count(SecretNamespace, p.namespace, secrets) else 0
  {
    FlatMapKeyedCount((q: PodRecord) => UsesSecretFrom(q, secrets), FromId, PodId, pods, p);
  }

  /** Among all uses_secret edges, those starting at a pod of namespace `ns`
      number the pods of `ns` times the secrets of `ns`. */
  lemma UsesSecretPerNamespace(pods: seq<PodRecord>, secrets: seq<SecretRecord>, ns: string)
    requires UniquePodIds(pods)
    ensures Count((e: Edge) => FromPodIn(pods, ns, e), true, UsesSecretEdges(pods, secrets)) ==
      if ns == "" then 0 else Count(PodNamespace, Some(ns), pods) * Count(SecretNamespace, Some(ns), secrets)
  {
    var f := (q: PodRecord) => UsesSecretFrom(q, secrets);
    var keep := (e: Edge) => FromPodIn(pods, ns, e);
    var n := if ns == "" then 0 else Count(SecretNamespace, Some(ns), secrets);
    forall a, b | a in pods && b in f(a)
      ensures keep(b) <==> PodNamespace(a) == Some(ns)
    {
      var i :| 0 <= i < |f(a)| && f(a)[i] == b;
      FromPodInIff(pods, ns, a, b);
    }
    FlatMapSelectedCount(f, keep, PodNamespace, Some(ns), pods, n);
  }

  /** One has_container edge per container of the pod. */
  lemma HasContainerPerPod(pods: seq<PodRecord>, p: PodRecord)
    requires UniquePodIds(pods)
    requires p in pods
    ensures Count(FromId, p.id, HasContainerEdges(pods)) == |p.containers|
  {
    FlatMapKeyedCount(HasContainerFrom, FromId, PodId, pods, p);
  }

  lemma {:induction false} HasContainerLength(pods: seq<PodRecord>)
    ensures |HasContainerEdges(pods)| == TotalContainers(pods)
  {
    if |pods| > 0 {
      HasContainerLength(pods[1..]);
    }
  }

  /** The `runs_on` batch is empty whatever the edges: no edge dictionary has
      a `runs_on` key, so the slice has length zero. */
  lemma RunsOnBatchEmpty(edges: seq<Edge>)
    ensures RunsOnBatch(edges) == []
  {
    FilterNoneKept((e: Edge) => "runs_on" in EdgeDict(e), edges);
  }

  /** An edge with the signature of relation `r` falls in the filter batch of
      `rel` exactly when `r` is `rel`. */
  lemma SignatureSelectsBatch(rel: Relation, r: Relation, e: Edge)
    requires rel != RunsOn && HasSignature(e, r)
    ensures InBatch(rel, e) <==> rel == r
  {
  }

  /** Filtering seven groups, each of the signature of its relation, by the
      batch filter of `rel` yields the group of `rel`. */
  lemma FilterOfSignedGroups(gs: seq<seq<Edge>>, rel: Relation)
    requires rel != RunsOn && |gs| == |Relations|
    requires forall i, e :: 0 <= i < |gs| && e in gs[i] ==> HasSignature(e, Relations[i])
    ensures Filter((e: Edge) => InBatch(rel, e), Flatten(gs)) == gs[rel.Index()]
  {
    var keep := (e: Edge) => InBatch(rel, e);
    var k := rel.Index();
    assert forall i, x :: 0 <= i < |gs| && i != k && x in gs[i] ==> !keep(x) by {
      forall i, x | 0 <= i < |gs| && i != k && x in gs[i]
        ensures !keep(x)
      {
        SignatureSelectsBatch(rel, Relations[i], x);
      }
    }
    assert forall x :: x in gs[k] ==> keep(x) by {
      forall x | x in gs[k]
        ensures keep(x)
      {
        SignatureSelectsBatch(rel, rel, x);
      }
    }
    FilterSelectsGroup(keep, gs, k);
  }

  /** Each of the other six batches is exactly its group, in order. */
  lemma BatchIsGroup(a: Snapshot, rel: Relation)
    requires rel != RunsOn
    ensures Batch(rel, CreateRelationships(a)) == Group(rel, a)
  {
    var gs := EdgeGroups(a);
    forall i, e | 0 <= i < |gs| && e in gs[i]
      ensures HasSignature(e, Relations[i])
    {
      GroupSignature(Relations[i], a);
    }
    FilterOfSignedGroups(gs, rel);
  }

  /** The Pod -> K8sNode edges are built but reach no batch. */
  lemma RunsOnEdgesReachNoBatch(a: Snapshot, rel: Relation, e: Edge)
    requires e in RunsOnEdges(a.pods)
    ensures e !in Batch(rel, CreateRelationships(a))
  {
    if rel == RunsOn {
      RunsOnBatchEmpty(CreateRelationships(a));
    } else {
      BatchIsGroup(a, rel);
      GroupSignature(rel, a);
    }
  }

  /** Distinct batches share no edge. */
  lemma BatchesDisjoint(a: Snapshot, r1: Relation, r2: Relation, e: Edge)
    requires r1 != r2
    requires e in Batch(r1, CreateRelationships(a))
    ensures e !in Batch(r2, CreateRelationships(a))
  {
    RunsOnBatchEmpty(CreateRelationships(a));
    if r2 != RunsOn {
      BatchIsGroup(a, r1);
      BatchIsGroup(a, r2);
      GroupSignature(r1, a);
      GroupSignature(r2, a);
    }
  }

  /** The has_container batch has one edge per container. */
  lemma HasContainerBatchLength(a: Snapshot)
    ensures |Batch(HasContainer, CreateRelationships(a))| == TotalContainers(a.pods)
  {
    BatchIsGroup(a, HasContainer);
    HasContainerLength(a.pods);
  }

  /** With no selector, or an empty one, a service selects exactly the pods
      of its namespace, in order. */
  lemma EmptySelectorSelectsNamespace(svc: ServiceRecord, pods: seq<PodRecord>)
    requires svc.selector.GetOr(map[]) == map[]
    ensures PodsForService(svc, pods) == Filter((p: PodRecord) => p.namespace == svc.namespace, pods)
  {
    FilterAgreeing((p: PodRecord) => ServiceSelects(svc, p),
                   (p: PodRecord) => p.namespace == svc.namespace, pods);
  }
}

=== FILE: seqs.dfy ===
/** Order-preserving sequence combinators: the shape of the Python `for` loops
    that append to a result list, and of list comprehensions with an `if`. */
module Seqs {

  /** Elementwise image, in order. */
  function Map<A, B>(f: A -> B, s: seq<A>): (r: seq<B>)
    ensures |r| == |s|
    ensures forall i :: 0 <= i < |s| ==> r[i] == f(s[i])
  {
    seq(|s|, i requires 0 <= i < |s| => f(s[i]))
  }

  /** The elements of `s` that satisfy `keep`, in their original order
      (`[x for x in s if keep(x)]`). */
  function Filter<T(!new)>(keep: T -> bool, s: seq<T>): (r: seq<T>)
    ensures |r| <= |s|
    ensures forall x :: x in r <==> x in s && keep(x)
  {
    if |s| == 0 then []
    else if keep(s[0]) then [s[0]] + Filter(keep, s[1..])
    else Filter(keep, s[1..])
  }

  /** Filtering keeps every occurrence of a kept element and drops every
      occurrence of any other. */
  lemma {:induction false} FilterMultiset<T(!new)>(keep: T -> bool, s: seq<T>, x: T)
    ensures multiset(Filter(keep, s))[x] == if keep(x) then multiset(s)[x] else 0
  {
    if |s| > 0 {
      FilterMultiset(keep, s[1..], x);
      assert s == [s[0]] + s[1..];
      assert multiset(s) == multiset([s[0]]) + multiset(s[1..]);
      if keep(s[0]) {
        assert multiset(Filter(keep, s)) == multiset([s[0]]) + multiset(Filter(keep, s[1..]));
      }
    }
  }

  /** `f(s[0]) + f(s[1]) + ...`: a loop over `s` whose body appends `f(x)`. */
  function FlatMap<A(!new), B(!new)>(f: A -> seq<B>, s: seq<A>): (r: seq<B>)
    ensures forall y :: y in r <==> exists x :: x in s && y in f(x)
  {
    if |s| == 0 then []
    else f(s[0]) + FlatMap(f, s[1..])
  }

  /** Concatenation of a sequence of sequences. */
  function Flatten<T(!new)>(ss: seq<seq<T>>): (r: seq<T>)
    ensures forall y :: y in r <==> exists i :: 0 <= i < |ss| && y in ss[i]
  {
    if |ss| == 0 then []
    else ss[0] + Flatten(ss[1..])
  }

  lemma FlattenSeven<T(!new)>(g0: seq<T>, g1: seq<T>, g2: seq<T>, g3: seq<T>, g4: seq<T>, g5: seq<T>, g6: seq<T>)
    ensures Flatten([g0, g1, g2, g3, g4, g5, g6]) == g0 + g1 + g2 + g3 + g4 + g5 + g6
  {
    assert Flatten([g6]) == g6 by { assert [g6][1..] == []; }
    assert Flatten([g5, g6]) == g5 + g6 by { assert [g5, g6][1..] == [g6]; }
    assert Flatten([g4, g5, g6]) == g4 + g5 + g6 by { assert [g4, g5, g6][1..] == [g5, g6]; }
    assert Flatten([g3, g4, g5, g6]) == g3 + g4 + g5 + g6 by {
      assert [g3, g4, g5, g6][1..] == [g4, g5, g6];
    }
    assert Flatten([g2, g3, g4, g5, g6]) == g2 + g3 + g4 + g5 + g6 by {
      assert [g2, g3, g4, g5, g6][1..] == [g3, g4, g5, g6];
    }
    assert Flatten([g1, g2, g3, g4, g5, g6]) == g1 + g2 + g3 + g4 + g5 + g6 by {
      assert [g1, g2, g3, g4, g5, g6][1..] == [g2, g3, g4, g5, g6];
    }
    assert [g0, g1, g2, g3, g4, g5, g6][1..] == [g1, g2, g3, g4, g5, g6];
  }

  lemma FlattenSevenGroups<T(!new)>(gs: seq<seq<T>>)
    requires |gs| == 7
    ensures Flatten(gs) == gs[0] + gs[1] + gs[2] + gs[3] + gs[4] + gs[5] + gs[6]
  {
    assert gs == [gs[0], gs[1], gs[2], gs[3], gs[4], gs[5], gs[6]];
    FlattenSeven(gs[0], gs[1], gs[2], gs[3], gs[4], gs[5], gs[6]);
  }

  lemma {:induction false} FilterConcat<T(!new)>(keep: T -> bool, a: seq<T>, b: seq<T>)
    ensures Filter(keep, a + b) == Filter(keep, a) + Filter(keep, b)
  {
    if |a| == 0 {
      assert a + b == b;
    } else {
      assert (a + b)[1..] == a[1..] + b;
      FilterConcat(keep, a[1..], b);
    }
  }

  /** Filtering keeps a sequence unchanged exactly when every element passes. */
  lemma {:induction false} FilterAllKept<T(!new)>(keep: T -> bool, s: seq<T>)
    requires forall x :: x in s ==> keep(x)
    ensures Filter(keep, s) == s
  {
    if |s| > 0 {
      FilterAllKept(keep, s[1..]);
    }
  }

  lemma FilterNoneKept<T(!new)>(keep: T -> bool, s: seq<T>)
    requires forall x :: x in s ==> !keep(x)
    ensures Filter(keep, s) == []
  {
  }

  /** Filtering with two predicates that agree on `s` gives the same result. */
  lemma {:induction false} FilterAgreeing<T(!new)>(p: T -> bool, q: T -> bool, s: seq<T>)
    requires forall x :: x in s ==> p(x) == q(x)
    ensures Filter(p, s) == Filter(q, s)
  {
    if |s| > 0 {
      FilterAgreeing(p, q, s[1..]);
    }
  }

  /** When each element contributes one item if its key is `k` and none
      otherwise, the result has as many items as `s` has elements with key `k`. */
  lemma {:induction false} FlatMapOneIfKey<A(!new), B(!new), K>(f: A -> seq<B>, keyOf: A -> K, k: K, s: seq<A>)
    requires forall x :: x in s ==> |f(x)| == (if keyOf(x) == k then 1 else 0)
    ensures |FlatMap(f, s)| == Count(keyOf, k, s)
  {
    if |s| > 0 {
      FlatMapOneIfKey(f, keyOf, k, s[1..]);
    }
  }

  /** Filtering one element keeps it or drops it. */
  lemma FilterOne<T(!new)>(keep: T -> bool, x: T)
    ensures Filter(keep, [x]) == if keep(x) then [x] else []
  {
    assert [x][1..] == [];
  }

  /** A flat map over one element is that element's items. */
  lemma FlatMapOne<A(!new), B(!new)>(f: A -> seq<B>, x: A)
    ensures FlatMap(f, [x]) == f(x)
  {
    assert [x][1..] == [];
  }

  lemma {:induction false} FlatMapConcat<A(!new), B(!new)>(f: A -> seq<B>, a: seq<A>, b: seq<A>)
    ensures FlatMap(f, a + b) == FlatMap(f, a) + FlatMap(f, b)
  {
    if |a| == 0 {
      assert a + b == b;
    } else {
      assert (a + b)[1..] == a[1..] + b;
      FlatMapConcat(f, a[1..], b);
    }
  }

  /** Counting the items that satisfy `keep` in a flat map: when each element
      whose key is `k` contributes `n` items, all kept, and every other element
      contributes only items that are not kept, `n` items are kept per such
      element. */
  lemma {:induction false} FlatMapSelectedCount<A(!new), B(!new), K>(f: A -> seq<B>, keep: B -> bool, keyOf: A -> K, k: K, s: seq<A>, n: nat)
    requires forall a :: a in s && keyOf(a) == k ==> |f(a)| == n
    requires forall a, b :: a in s && keyOf(a) == k && b in f(a) ==> keep(b)
    requires forall a, b :: a in s && keyOf(a) != k && b in f(a) ==> !keep(b)
    ensures Count(keep, true, FlatMap(f, s)) == Count(keyOf, k, s) * n
  {
    if |s| > 0 {
      var c := Count(keyOf, k, s[1..]);
      var m := Count(keep, true, f(s[0]));
      assert Count(keep, true, FlatMap(f, s[1..])) == c * n by {
        assert forall a :: a in s[1..] ==> a in s;
        FlatMapSelectedCount(f, keep, keyOf, k, s[1..], n);
      }
      assert Count(keep, true, FlatMap(f, s)) == m + c * n by {
        CountConcat(keep, true, f(s[0]), FlatMap(f, s[1..]));
      }
      assert m == (if keyOf(s[0]) == k then n else 0) by {
        assert s[0] in s;
      }
      if keyOf(s[0]) == k {
        assert Count(keyOf, k, s) == c + 1;
        MulSucc(c, n);
      } else {
        assert Count(keyOf, k, s) == c;
      }
    }
  }

  lemma MulSucc(c: nat, n: nat)
    ensures (c + 1) * n == c * n + n
  {
  }

  /** Filtering a concatenation of groups by a predicate that holds on all of
      group `k` and on nothing in any other group yields exactly group `k`. */
  lemma {:induction false} FilterSelectsGroup<T(!new)>(keep: T -> bool, gs: seq<seq<T>>, k: nat)
    requires k < |gs|
    requires forall x :: x in gs[k] ==> keep(x)
    requires forall i, x :: 0 <= i < |gs| && i != k && x in gs[i] ==> !keep(x)
    ensures Filter(keep, Flatten(gs)) == gs[k]
  {
    FilterConcat(keep, gs[0], Flatten(gs[1..]));
    if k == 0 {
      FilterAllKept(keep, gs[0]);
      FilterNoneKept(keep, Flatten(gs[1..]));
    } else {
      FilterNoneKept(keep, gs[0]);
      FilterSelectsGroup(keep, gs[1..], k - 1);
    }
  }

  /** The number of elements of `s` whose key is `k`. */
  function Count<T(!new), K(==)>(keyOf: T -> K, k: K, s: seq<T>): (n: nat)
    ensures n <= |s|
    ensures n == 0 <==> forall x :: x in s ==> keyOf(x) != k
    ensures n == |s| <==> forall x :: x in s ==> keyOf(x) == k
  {
    if |s| == 0 then 0
    else (if keyOf(s[0]) == k then 1 else 0) + Count(keyOf, k, s[1..])
  }

  /** Filtering on "the key is `k`" keeps `Count` elements. */
  lemma {:induction false} FilterCount<T(!new), K>(keep: T -> bool, keyOf: T -> K, k: K, s: seq<T>)
    requires forall x :: keep(x) == (keyOf(x) == k)
    ensures |Filter(keep, s)| == Count(keyOf, k, s)
  {
    if |s| > 0 {
      FilterCount(keep, keyOf, k, s[1..]);
    }
  }

  lemma {:induction false} CountConcat<T(!new), K>(keyOf: T -> K, k: K, a: seq<T>, b: seq<T>)
    ensures Count(keyOf, k, a + b) == Count(keyOf, k, a) + Count(keyOf, k, b)
  {
    if |a| == 0 {
      assert a + b == b;
    } else {
      assert (a + b)[1..] == a[1..] + b;
      CountConcat(keyOf, k, a[1..], b);
    }
  }

  /** Counting the items that carry the key of one element `x`: when every
      item produced from `a` carries `a`'s key and keys are unique in `s`,
      exactly the items produced from `x` are counted. */
  lemma {:induction false} FlatMapKeyedCount<A(!new), B(!new), K>(f: A -> seq<B>, keyOf: B -> K, idOf: A -> K, s: seq<A>, x: A)
    requires forall a, b :: a in s && b in f(a) ==> keyOf(b) == idOf(a)
    requires forall i, j :: 0 <= i < |s| && 0 <= j < |s| && idOf(s[i]) == idOf(s[j]) ==> i == j
    requires x in s
    ensures Count(keyOf, idOf(x), FlatMap(f, s)) == |f(x)|
  {
    CountConcat(keyOf, idOf(x), f(s[0]), FlatMap(f, s[1..]));
    if s[0] == x {
      forall a, b | a in s[1..] && b in f(a) ensures keyOf(b) != idOf(x) {
        var j :| 1 <= j < |s| && s[j] == a;
        assert idOf(s[j]) != idOf(s[0]);
      }
    } else {
      assert idOf(s[0]) != idOf(x) by {
        var j :| 0 <= j < |s| && s[j] == x;
        assert j != 0;
      }
      forall i, j | 0 <= i < |s[1..]| && 0 <= j < |s[1..]| && idOf(s[1..][i]) == idOf(s[1..][j])
        ensures i == j
      {
        assert idOf(s[i + 1]) == idOf(s[j + 1]);
      }
      FlatMapKeyedCount(f, keyOf, idOf, s[1..], x);
    }
  }
}

=== FILE: text.dfy ===
/** String operations the system relies on: substring tests (Python `in`,
    JavaScript `includes`), JavaScript `split`, Python `str.join` and decimal
    printing of integers (Python `str(int)`, JavaScript `String(n)`). */
module Text {

  import opened Wrappers

  /** `p` occurs in `s` starting at offset `i`. */
  predicate OccursAt(s: string, p: string, i: int) {
    0 <= i && i + |p| <= |s| && s[i..i + |p|] == p
  }

  /** `p` is a substring of `s`; the empty string is a substring of every string. */
  predicate Contains(s: string, p: string) {
    exists i :: 0 <= i <= |s| - |p| && OccursAt(s, p, i)
  }

  /** The first offset at or after `from` where `p` occurs in `s`. */
  function FindFrom(s: string, p: string, from: nat): (r: Option<nat>)
    ensures r.Some? ==> from <= r.value && OccursAt(s, p, r.value)
    ensures r.Some? ==> forall j :: from <= j < r.value ==> !OccursAt(s, p, j)
    ensures r.None? ==> forall j :: from <= j ==> !OccursAt(s, p, j)
    decreases |s| - from
  {
    if from + |p| > |s| then None
    else if OccursAt(s, p, from) then Some(from)
    else FindFrom(s, p, from + 1)
  }

  /** The first offset where `p` occurs in `s`, if any (JavaScript `indexOf`). */
  function FindFirst(s: string, p: string): (r: Option<nat>)
    ensures r.Some? <==> Contains(s, p)
    ensures r.Some? ==> OccursAt(s, p, r.value) && forall j :: 0 <= j < r.value ==> !OccursAt(s, p, j)
  {
    FindFrom(s, p, 0)
  }

  /** JavaScript `s.split(sep)` for a non-empty separator: the pieces between
      successive non-overlapping occurrences of `sep`, scanning left to right. */
  function Split(s: string, sep: string): (r: seq<string>)
    requires |sep| > 0
    ensures |r| >= 1
    decreases |s|
  {
    match FindFirst(s, sep)
    case None => [s]
    case Some(i) => [s[..i]] + Split(s[i + |sep|..], sep)
  }

  /** Python `sep.join(xs)`. */
  function Join(xs: seq<string>, sep: string): string
  {
    if |xs| == 0 then ""
    else if |xs| == 1 then xs[0]
    else xs[0] + sep + Join(xs[1..], sep)
  }

  /** Joining the pieces of a split with the same separator gives back the string. */
  lemma {:induction false} JoinSplit(s: string, sep: string)
    requires |sep| > 0
    ensures Join(Split(s, sep), sep) == s
    decreases |s|
  {
    match FindFirst(s, sep)
    case None =>
    case Some(i) =>
      var rest := s[i + |sep|..];
      var pieces := Split(rest, sep);
      JoinSplit(rest, sep);
      assert Split(s, sep) == [s[..i]] + pieces;
      assert ([s[..i]] + pieces)[1..] == pieces;
      assert Join(Split(s, sep), sep) == s[..i] + sep + Join(pieces, sep);
      assert s[i..i + |sep|] == sep;
      assert s == s[..i] + sep + rest;
  }

  /** The first piece of a split is the text before the first occurrence of
      `sep`, or all of `s` when `sep` does not occur. */
  lemma SplitHead(s: string, sep: string)
    requires |sep| > 0
    ensures var h := Split(s, sep)[0];
      && h == s[..|h|]
      && (forall j :: 0 <= j < |h| ==> !OccursAt(s, sep, j))
      && (|h| == |s| || OccursAt(s, sep, |h|))
      && !Contains(h, sep)
  {
    var h := Split(s, sep)[0];
    match FindFirst(s, sep)
    case None =>
    case Some(i) =>
      assert h == s[..i];
      forall j | 0 <= j <= |h| - |sep|
        ensures !OccursAt(h, sep, j)
      {
        assert h[j..j + |sep|] == s[j..j + |sep|];
        assert !OccursAt(s, sep, j);
      }
  }

  /** An occurrence inside a prefix is an occurrence in the whole string. */
  lemma OccursInPrefix(s: string, k: nat, p: string)
    requires k <= |s|
    ensures forall j :: OccursAt(s[..k], p, j) ==> OccursAt(s, p, j)
  {
    forall j | OccursAt(s[..k], p, j)
      ensures OccursAt(s, p, j)
    {
      assert s[..k][j..j + |p|] == s[j..j + |p|];
    }
  }

  /** A pattern cannot occur where a character other than its first one stands. */
  lemma NotOccursAt(s: string, p: string, j: int)
    requires 0 <= j < |s| && |p| > 0 && s[j] != p[0]
    ensures !OccursAt(s, p, j)
  {
    assert j + |p| <= |s| ==> s[j..j + |p|][0] == s[j];
  }

  /** A pattern whose first character is missing from `s` does not occur in `s`. */
  lemma FirstCharAbsent(s: string, p: string)
    requires |p| > 0 && p[0] !in s
    ensures !Contains(s, p)
  {
    forall i | 0 <= i <= |s| - |p|
      ensures !OccursAt(s, p, i)
    {
      assert s[i] in s;
      assert s[i..i + |p|][0] == s[i];
    }
  }

  /** A pattern free of the character `c` occurs in `a + [c] + b` only if it
      occurs in `a` or in `b`. */
  lemma NotAcrossSeparator(a: string, c: char, b: string, p: string)
    requires c !in p
    requires !Contains(a, p) && !Contains(b, p)
    ensures !Contains(a + [c] + b, p)
  {
    var s := a + [c] + b;
    forall i | 0 <= i <= |s| - |p|
      ensures !OccursAt(s, p, i)
    {
      if i + |p| <= |a| {
        assert s[i..i + |p|] == a[i..i + |p|];
        assert !OccursAt(a, p, i);
      } else if i > |a| {
        assert s[i..i + |p|] == b[i - |a| - 1..i - |a| - 1 + |p|];
        assert !OccursAt(b, p, i - |a| - 1);
      } else {
        assert s[i..i + |p|][|a| - i] == c;
      }
    }
  }

  /** A two-character pattern absent from the first `n` offsets of a prefix
      `h` of `s` is absent from those offsets of `s` too, when `h` is all of
      `s` or is followed in `s` by a pattern `q` that does not start with the
      pattern's second character. */
  lemma NoOccurrenceBeforeCut(s: string, h: string, n: nat, p: string, q: string)
    requires |h| <= |s| && h == s[..|h|]
    requires |h| == |s| || OccursAt(s, q, |h|)
    requires n <= |h|
    requires forall j :: 0 <= j < n ==> !OccursAt(h, p, j)
    requires |p| == 2 && |q| > 0 && p[1] != q[0]
    ensures forall j :: 0 <= j < n ==> !OccursAt(s, p, j)
  {
    forall j | 0 <= j < n
      ensures !OccursAt(s, p, j)
    {
      assert !OccursAt(h, p, j);
      if j + |p| <= |h| {
        assert s[..|h|][j..j + |p|] == s[j..j + |p|];
        assert s[j..j + |p|] == h[j..j + |p|];
      } else if j + |p| <= |s| {
        assert s[j + 1] == s[|h|..|h| + |q|][0];
        assert s[j..j + |p|][1] == s[j + 1];
      }
    }
  }

  /** Cutting `s` at the first `q` and that piece at the first `p` cuts `s`
      at the first `q` or `p`, whichever comes first, or at its end. */
  lemma FirstOfTwoCuts(s: string, q: string, p: string)
    requires |q| > 0 && |p| == 2 && p[1] != q[0]
    ensures var t := Split(Split(s, q)[0], p)[0];
      && |t| <= |s| && t == s[..|t|]
      && !Contains(t, q) && !Contains(t, p)
      && (forall j :: 0 <= j < |t| ==> !OccursAt(s, q, j) && !OccursAt(s, p, j))
      && (|t| == |s| || OccursAt(s, q, |t|) || OccursAt(s, p, |t|))
  {
    var h := Split(s, q)[0];
    SplitHead(s, q);
    var t := Split(h, p)[0];
    SplitHead(h, p);
    OccursInPrefix(s, |h|, p);
    OccursInPrefix(h, |t|, q);
    OccursInPrefix(s, |h|, q);
    assert !Contains(t, q) by {
      forall j | 0 <= j <= |t| - |q|
        ensures !OccursAt(t, q, j)
      {
        assert !OccursAt(s, q, j);
      }
    }
    NoOccurrenceBeforeCut(s, h, |t|, p, q);
  }

  /** A split has at least two pieces exactly when the separator occurs. */
  lemma SplitHasSecondPiece(s: string, sep: string)
    requires |sep| > 0
    ensures |Split(s, sep)| > 1 <==> Contains(s, sep)
    ensures Contains(s, sep) ==>
      Split(s, sep)[1] == Split(s[FindFirst(s, sep).value + |sep|..], sep)[0]
  {
  }

  /** Splitting on a single character undoes joining on it, provided no piece
      contains that character. */
  lemma {:induction false} SplitJoin(xs: seq<string>, c: char)
    requires |xs| > 0
    requires forall x :: x in xs ==> c !in x
    ensures Split(Join(xs, [c]), [c]) == xs
  {
    assert xs[0] in xs;
    if |xs| == 1 {
      FirstCharAbsent(xs[0], [c]);
    } else {
      var rest := Join(xs[1..], [c]);
      var s := xs[0] + [c] + rest;
      assert Join(xs, [c]) == s;
      FirstCharAbsent(xs[0], [c]);
      assert OccursAt(s, [c], |xs[0]|) by {
        assert s[|xs[0]|..|xs[0]| + 1] == [c];
      }
      forall j | 0 <= j < |xs[0]| ensures !OccursAt(s, [c], j) {
        assert s[j] == xs[0][j];
        assert xs[0][j] in xs[0];
      }
      assert FindFirst(s, [c]) == Some(|xs[0]|);
      assert s[..|xs[0]|] == xs[0];
      assert s[|xs[0]| + 1..] == rest;
      SplitJoin(xs[1..], c);
    }
  }

  predicate IsDigit(c: char) {
    '0' <= c <= '9'
  }

  function DigitChar(d: nat): (c: char)
    requires d < 10
    ensures IsDigit(c)
  {
    (48 + d) as char
  }

  function DigitValue(c: char): nat
    requires IsDigit(c)
  {
    (c as int) - 48
  }

  /** Decimal notation of a natural number, without leading zeros. */
  function NatToString(n: nat): (r: string)
    ensures |r| >= 1
    ensures forall c :: c in r ==> IsDigit(c)
    ensures n >= 10 ==> r[0] != '0'
  {
    if n < 10 then [DigitChar(n)]
    else NatToString(n / 10) + [DigitChar(n % 10)]
  }

  /** The number a string of decimal digits denotes. */
  function DecimalValue(s: string): nat
    requires forall c :: c in s ==> IsDigit(c)
  {
    if |s| == 0 then 0
    else DecimalValue(s[..|s| - 1]) * 10 + DigitValue(s[|s| - 1])
  }

  /** Reading back the decimal notation of `n` gives `n`. */
  lemma {:induction false} DecimalRoundTrip(n: nat)
    ensures DecimalValue(NatToString(n)) == n
  {
    if n >= 10 {
      var r := NatToString(n);
      assert r[..|r| - 1] == NatToString(n / 10);
      DecimalRoundTrip(n / 10);
    }
  }

  /** Distinct numbers have distinct decimal notations. */
  lemma NatToStringInjective(m: nat, n: nat)
    requires m != n
    ensures NatToString(m) != NatToString(n)
  {
    DecimalRoundTrip(m);
    DecimalRoundTrip(n);
  }

  /** Python `str(i)` for an integer: an optional minus sign, then the digits. */
  function IntToString(i: int): (r: string)
    ensures |r| >= 1
    ensures forall c :: c in r ==> IsDigit(c) || c == '-'
  {
    if i < 0 then "-" + NatToString(-i) else NatToString(i)
  }
}

=== FILE: wrappers.dfy ===
/** Optional values, standing in for Python's `None` and for keys a record
    dictionary may lack. */
module Wrappers {

  /** `None` is Python's `None` (or an absent key); `Some(v)` is a present value. */
  datatype Option<+T> = None | Some(value: T) {

    /** The value, or `default` when there is none (Python's `d.get(k, default)`). */
    function GetOr(default: T): T {
      match this
      case Some(v) => v
      case None => default
    }
  }

  /** Python truthiness of an optional string: present and not empty. */
  predicate Truthy(o: Option<string>) {
    o.Some? && o.value != ""
  }
}
